=== FILE: README.md ===
# Krucindiko card layout, modelled in Dafny

`krei-kartojn.py` reads a word list from `vortoj.tsv` and draws the words on
square cards, two per card and twelve cards per page. It writes two PDF files:
a single-sided one, and a double-sided one. In the double-sided file the
counter jumps to the next page at planned "skip points". The aim is that, once
the sheet is turned over, the cards on the last pair of pages sit back to back.

The project models this script's integer and sequence logic:

- `wrappers.dfy` (`Wrappers`): the `Option` type.
- `word_extraction.dfy` (`WordExtraction`): `EXTRACT_WORD_RE`, written as an
  explicit scanner. Two lemmas show it matches the pattern's shape: one for
  soundness and one for completeness.
- `word_source.dfy` (`WordSource`): the reading loop.
  - Line 1 is a header.
  - The first occurrence of each word is kept, in order.
  - Each repeat produces a warning that carries its line number.
  - Input is a sequence of lines; warnings are returned, not printed.
- `card_grid.dfy` (`CardGrid`): the layout constants, the slot `add_word`
  computes from the counter `word_num`, the column flip on odd pages, and
  `skip_to_page_start`.
- `pagination.dfy` (`Pagination`): the skip-point planner as written. It also
  holds a corrected planner, `BalancedSkipPoints` (see Findings).
- `card_layout.dfy` (`CardLayout`): the placement loop of `generate_pdf`.
  - It is the sequence of counter values the words are drawn at, plus the
    slots those values give.
  - It includes the page-by-page layouts that both planners produce for an
    even page count.
- `krucindiko.dfy` (`Krucindiko`): the script body. It reads, draws
  single-sided, plans, and draws double-sided with the planner as written.
  It also has concrete 25-, 30- and 48-word layouts.

`P` below is `WORDS_PER_PAGE` (24) and `W` is the number of distinct words.

## Model

| member | source | states |
|---|---|---|
| WordExtraction.FirstTab | krei-kartojn.py:8 | the `[^\t]*\t` prefix: the index of the first tab, or none when the line has no tab |
| WordExtraction.Strip | krei-kartojn.py:8 | the ` *( … ) *` trimming: the result is non-empty, starts and ends with a non-space, and is the field with only spaces cut from both ends |
| WordExtraction.ExtractField | krei-kartojn.py:8 | the group found after the first tab: non-empty, free of tabs and newlines, and either `" "` or without edge spaces |
| WordExtraction.Extract | krei-kartojn.py:8 | `EXTRACT_WORD_RE.match(line).group(1)`: a line without a tab never matches; a word is non-empty, free of tabs and newlines, and either `" "` or without edge spaces |
| WordExtraction.ExtractSound | krei-kartojn.py:8 | whatever `Extract` returns is a group the pattern can match: a first tab, spaces, the group, spaces, then a tab, the end, or a final newline |
| WordExtraction.ExtractComplete | krei-kartojn.py:8 | whenever the pattern can match, `Extract` succeeds: the group is the field stripped of spaces, or `" "` if the field is all spaces |
| WordExtraction.ExampleTrimmed | krei-kartojn.py:8 | `"1\t  hello  \textra"` yields `"hello"` |
| WordExtraction.ExampleFinalNewline | krei-kartojn.py:8 | `$` matches before a final newline: `"1\thello\n"` yields `"hello"` |
| WordExtraction.ExampleAllSpaces | krei-kartojn.py:8 | an all-space field yields the single-space word `" "` |
| WordExtraction.ExampleNoTab | krei-kartojn.py:8 | a line without a tab yields nothing |
| WordExtraction.ExampleEmptyField | krei-kartojn.py:8 | an empty second field yields nothing, because the group needs at least one character |
| WordExtraction.ExampleInnerNewline | krei-kartojn.py:8 | a newline that does not end the line ends the field without matching |
| WordSource.Absorb | krei-kartojn.py:144-150 | a repeat only appends a warning with its line number, leaving the list unchanged; a new word is appended and remembered; `set(word_list) == all_words` and no duplicates are preserved |
| WordSource.ReadLine | krei-kartojn.py:132-150 | one iteration: the header and non-matching lines change nothing; the loop invariant is preserved |
| WordSource.ReadLines | krei-kartojn.py:127-150 | the whole loop keeps `set(word_list) == all_words` and no duplicates |
| WordSource.FirstLine | krei-kartojn.py:144-150 | the first line after the header that yields a word, or none if none yields it |
| WordSource.ReadLinesSpec | krei-kartojn.py:127-150 | the words are exactly those some line after the header yields, in first-occurrence order; every warning is a genuine repeat; warnings come in line order; every repeat has its warning with its 1-based line number |
| WordSource.HeaderIgnored | krei-kartojn.py:135-136 | two files that differ only in line 1 give the same result |
| WordSource.Dedup | krei-kartojn.py:132-150 | the same loop, folded over what each line yields instead of over the lines; it keeps `set(word_list) == all_words` and no duplicates |
| WordSource.ReadLinesIsDedup | krei-kartojn.py:132-150 | the loop over lines equals the fold over what each line yields |
| WordSource.DedupWords | krei-kartojn.py:144-150 | the fold keeps exactly the first occurrences, in order |
| WordSource.DedupWarningsSound | krei-kartojn.py:144-147 | every warning of the fold is a repeat, in increasing line order |
| WordSource.DedupWarningsComplete | krei-kartojn.py:144-147 | every repeat gets its warning |
| CardGrid.DerivedConstants | krei-kartojn.py:18-22 | `CARDS_PER_PAGE` and `WORDS_PER_PAGE` are the products the source defines them as |
| CardGrid.Flip | krei-kartojn.py:88-89 | the mirrored column is in range and sums with the original to `COLUMNS_PER_PAGE - 1` |
| CardGrid.FlipInvolution | krei-kartojn.py:88-89 | flipping twice gives the column back |
| CardGrid.SlotOf | krei-kartojn.py:66-89 | `word_in_card`, `card_in_page`, the row and the column are in range; the page is `word_num // P`; `card_num` and `card_in_page` agree modulo the column count; the column is unchanged on even pages and flipped on odd ones; the page-start test holds iff `word_num % P == 0`; a page break is emitted iff that holds and `word_num != 0` |
| CardGrid.SlotRoundTrip | krei-kartojn.py:66-89 | page, row, physical column and word-in-card determine the counter value |
| CardGrid.PlaceRoundTrip | krei-kartojn.py:66-89 | every place on paper is the slot of some counter value |
| CardGrid.SlotsDistinct | krei-kartojn.py:66-89 | two different counter values never share a place on paper |
| CardGrid.BackOfSheetAlignment | krei-kartojn.py:83-89 | a card on page 2m+1 is in the same row and the mirrored column as the card with the same `card_in_page` on page 2m (the comment at :86-87) |
| CardGrid.AddWord | krei-kartojn.py:65-122 | `add_word` draws at the slot `SlotOf` derives from the current counter, whose place on paper gives that counter back, and advances the counter by exactly 1, so it stays on the same page or moves onto the next page's first slot; `Positions` and `GeneratePdf` take the next counter and the slot from it |
| CardGrid.SkipToPageStart | krei-kartojn.py:124-125 | the least multiple of `P` strictly above the counter: it advances by 1 to `P` and lands on the next page |
| Pagination.PageCount | krei-kartojn.py:170 | `n_pages` is `ceil(W / P)`: it covers all words, has no empty page, and is 0 only for no words |
| Pagination.ClearLowBit | krei-kartojn.py:174 | `n & ~1` is the even number among n-1 and n |
| Pagination.SkipPoints | krei-kartojn.py:163-182 | no words give no skip point; no skip point is a page start or lies past the last page; both pair points are present when `n_pages >= 2`; the odd-page point is present when `n_pages` is odd |
| Pagination.SkipPointsNearEnd | krei-kartojn.py:163-182 | at most three skip points, all within the last three pages |
| Pagination.PlannerBounds | krei-kartojn.py:172-182 | `page_split_point` is in [P/2, P-1]; `last_page_pair` is even and below `n_pages - 1`; the two pair points fall in pages `last_page_pair` and `last_page_pair + 1`; the odd point is half-way into the last page |
| Pagination.BalancedSkipPoints | krei-kartojn.py:163-182 | the corrected planner: no words give no skip point; no point is a page start or past the last page; the odd-page point is kept |
| Pagination.BalancedBounds | krei-kartojn.py:173-178 | the corrected split is in [P/2, P]; when below P its pair points fall in the pair's pages |
| Pagination.BalancedAgreesOnEvenRemainder | krei-kartojn.py:173-178 | when the last page holds a non-zero even number of words, the corrected planner plans exactly what the source plans |
| Pagination.ThirtyWordsPlan | krei-kartojn.py:170-178 | 30 words give skip points {15, 39} |
| Pagination.TwentyFiveWordsPlan | krei-kartojn.py:170-178 | 25 words give {12, 36} as written and {13, 37} corrected |
| Pagination.FortyEightWordsPlan | krei-kartojn.py:170-178 | 48 words give {12, 36} as written and none corrected |
| Pagination.SeventyTwoWordsPlan | krei-kartojn.py:170-182 | 72 words, three full pages, give {12, 36, 60} as written |
| CardLayout.Place | krei-kartojn.py:156-157 | a word is drawn at the counter unless the counter is a skip point; at a skip point it is drawn at the next page's start |
| CardLayout.Positions | krei-kartojn.py:155-159 | one counter value per word, the first placed from the starting counter, none below it |
| CardLayout.PositionsStep | krei-kartojn.py:155-159 | each word after the first is placed from the counter `add_word` left after the previous word |
| CardLayout.PositionsIncrease | krei-kartojn.py:155-159 | the counter values strictly increase |
| CardLayout.SlotsInjective | krei-kartojn.py:66-89 | distinct counter values have distinct locations on paper |
| CardLayout.GeneratePdf | krei-kartojn.py:152-159 | every word is drawn once, in order, and no two words share a place on paper |
| CardLayout.PlacementsDistinct | krei-kartojn.py:155-159 | words drawn at strictly increasing counter values are drawn in distinct places |
| CardLayout.PlacedOnPage | krei-kartojn.py:155-159 | a word whose index a page holds is drawn on that page |
| CardLayout.Stretch | krei-kartojn.py:155-159 | with no skip point in reach the counter advances one by one |
| CardLayout.PositionsWithoutSkips | krei-kartojn.py:155-159 | without skip points word i is at counter value i |
| CardLayout.SingleSidedLayout | krei-kartojn.py:161 | the single-sided call draws word i in the slot of counter value i |
| CardLayout.NoBlankPages | krei-kartojn.py:155-159 | with skip points that avoid page starts, the first word is at 0, consecutive words are on the same or the next page, and a word on the next page is at its first slot |
| CardLayout.PageBreaksMatchPages | krei-kartojn.py:77-81 | the first word emits no page break and lands on page 0; later words emit a break exactly when they land on the next page |
| CardLayout.BreakStep | krei-kartojn.py:77-83 | a step that moves at most one page, and only onto a page start, emits a page break exactly when it moves |
| CardLayout.Jump | krei-kartojn.py:155-159 | after a jump, the words up to the next skip point follow the new page start one by one |
| CardLayout.OneJump | krei-kartojn.py:155-159 | with a single jump at x, words before x keep their index and the rest follow the next page start |
| CardLayout.TwoJumps | krei-kartojn.py:155-159 | with two jumps, the three stretches are at their index, after the first page start, and after the second |
| CardLayout.EvenPlan | krei-kartojn.py:170-178 | for an even page count, the source plans exactly the two pair points; the split is `(W % P + P) // 2`: half of the pair's words (rounded down) when the last page is not full, a quarter of them when it is full |
| CardLayout.OneJumpPages | krei-kartojn.py:155-159 | one jump at m*P+s: page m holds the words up to the jump and page m+1 the rest |
| CardLayout.TwoJumpPages | krei-kartojn.py:155-159 | jumps at m*P+s and (m+1)*P+s: pages m and m+1 hold s words each past the full pages, page m+2 the rest |
| CardLayout.BalancedLastPair | krei-kartojn.py:163-178 | the promised balancing, for an even page count and a non-zero even last page: all earlier pages full, `(W % P + P) / 2` words on each page of the last pair, nothing past the page count |
| CardLayout.OddRemainderSpills | krei-kartojn.py:170-178 | as written, an even page count with an odd last page gives `(W % P + P) / 2` words on each page of the pair and one word on an extra page |
| CardLayout.FullLastPageOverflows | krei-kartojn.py:170-178 | as written, an even page count with a full last page gives P/2 words on each page of the pair and P words on an extra page |
| CardLayout.BalancedEvenPlan | krei-kartojn.py:170-178 | the corrected planner's split for an even page count, and when it plans the pair points |
| CardLayout.BalancedPlannerBalances | krei-kartojn.py:163-178 | the corrected planner balances every even page count: earlier pages full, the pair shares the rest with the larger half first, nothing past the page count |
| CardLayout.NoJumpPages | krei-kartojn.py:155-159 | without skip points, words ending on page m fill every page before it |
| Krucindiko.Run | krei-kartojn.py:127-184 | both documents draw the same words in the same order; those words are exactly the words some line after the header yields, each once, in the order of their first lines; the single-sided document draws word i in the slot of counter value i; the warnings name every repeated line (with its 1-based number) and nothing else, in line order |
| Krucindiko.DoubleSidedPagesNumbered | krei-kartojn.py:161-184 | in the double-sided document, page breaks follow page indices, so no page index is skipped |
| Krucindiko.TwentyFiveWordsSpill | krei-kartojn.py:163-184 | any 25 words need two pages, but the double-sided document puts word 24 alone on page 2 |
| Krucindiko.SpillPages | krei-kartojn.py:163-184 | two pages' worth of words with one on the last page is exactly 25 words, and pages 0, 1 and 2 hold words 0-11, 12-23 and 24 |
| Krucindiko.FortyEightWordsOverflow | krei-kartojn.py:163-184 | any 48 words fill two pages, but the double-sided document puts words 24-47 on page 2 |
| Krucindiko.OverflowPages | krei-kartojn.py:163-184 | two full pages of words is exactly 48 words, and pages 0, 1 and 2 hold words 0-11, 12-23 and 24-47 |
| Krucindiko.ThirtyWordsBalance | krei-kartojn.py:163-184 | 30 words are drawn 15 on each of the two pages |
| Krucindiko.TwentyFiveWordsCorrected | krei-kartojn.py:163-184 | with the corrected planner, 25 words are drawn 13 and 12 on two pages |
| Krucindiko.FortyEightWordsCorrected | krei-kartojn.py:163-184 | with the corrected planner, 48 words fill two pages |

Definitions without a contract of their own, used as vocabulary by the
members above:

- `WordSource.Yields`: the per-line `EXTRACT_WORD_RE.match` of
  krei-kartojn.py:138-142. `ExtractSound`, `ExtractComplete` and
  `ReadLinesSpec` state its behaviour. `WordSource.FirstOccurrence` and
  `WordSource.IsRepeat` sit beside it.
- The planner's parts, all of whose ranges `Pagination.PlannerBounds` states:
  - `Pagination.PageSplitPoint`: `page_split_point`, krei-kartojn.py:173-175.
  - `Pagination.LastPagePair`: `last_page_pair`, krei-kartojn.py:174.
  - `Pagination.PairPoints`: the two `skip_points.add` calls, krei-kartojn.py:176-178.
  - `Pagination.OddPagePoint` and `Pagination.OddPoints`: the odd-page point, krei-kartojn.py:181-182.
- `CardLayout.SkipSet`: the `skip_points is not None` test at
  krei-kartojn.py:156. `None` never jumps.

Proof helpers without a row of their own, each a step of the lemmas above:
`CardLayout.StepAt` (one index of `PositionsStep`), `CardLayout.GeneratePdfSlots`,
`CardLayout.PageOfBetween`, `CardLayout.PageStartAfter`, `CardLayout.SkipFrom`,
`CardLayout.PageCountSplit`, `CardLayout.SegmentOnPage`,
`CardLayout.PrefixBeforePage`, `CardLayout.ThreeStretches` and
`Krucindiko.DrawnAsRead` (carries the word order of `ReadLinesSpec` to a document).

## Left out

- The cairo drawing is not modelled: the surface, context, scaling, dashes,
  crosshairs, text metrics, rotation and `show_page`. It is a foreign
  library. The model keeps what `add_word` feeds it: the slot, the row, the
  physical column, and whether a page break is emitted.
- Floating-point geometry is not modelled: `POINTS_PER_MM`, `CARD_SIZE`,
  `CARDS_START`, the crosshair size, and text centring.
- File I/O is not modelled. `vortoj.tsv` is given as its sequence of lines,
  each as Python's line iteration gives it (a final `\n` kept). The stderr
  message is the `RepeatedWord` warning value.
- The two PDF file names are not modelled. Each output is the sequence of
  placements its `generate_pdf` call makes.
- Python's regex engine is not used. Its observable behaviour for
  `EXTRACT_WORD_RE` is written out as a scanner. "Space" means only the
  character `' '`, the one the pattern names.
- Odd page counts get no page-by-page layout lemma. The model only proves
  the plan: `SkipPoints` contains the pair points for `last_page_pair` and
  the odd-page point; `SkipPointsNearEnd` bounds them; and
  `NoBlankPages` / `PageBreaksMatchPages` hold for every plan. So the
  full-last-page defect for odd page counts is shown only through its plan,
  `SeventyTwoWordsPlan`. The pages it leads to (12, 12, 12, 24 and 12 for
  72 words) follow from `Place` by hand; no lemma states them.
- Krucindiko.Run: the double-sided document uses the planner as written,
  `SkipPoints`, as the code does. Its contract does not restate the
  page-by-page layout; `OddRemainderSpills`, `FullLastPageOverflows` and
  `BalancedLastPair` state that.

## Findings

| source | as written | input that shows it | evidently intended | confidence | as-written member | corrected member |
|---|---|---|---|---|---|---|
| krei-kartojn.py:173-176 | `words_in_last_two_pages = W % P + P` counts one page too few when the last page is full | any 48 words: skip points {12, 36}, pages hold 12, 12 and 24 words, so three pages instead of two; with an odd page count too, 72 words give {12, 36, 60} and pages of 12, 12, 12, 24 and 12 | the last two pages hold `(W - 1) % P + 1 + P` words, so 48 words fill two full pages with no jump | high, not executed | Krucindiko.FortyEightWordsOverflow | Krucindiko.FortyEightWordsCorrected |
| krei-kartojn.py:175-178 | `page_split_point = words_in_last_two_pages // 2` rounds down, so an odd number of words for the pair leaves one word over | any 25 words: skip points {12, 36}, pages hold 12, 12 and 1 words, so three pages instead of two | round the split up, so the first page of the pair takes the extra word (13 and 12) | high, not executed | Krucindiko.TwentyFiveWordsSpill | Krucindiko.TwentyFiveWordsCorrected |

Both defects hold in general, not only for these inputs:

- `CardLayout.FullLastPageOverflows` and `CardLayout.OddRemainderSpills`
  prove them for every even page count.
- `CardLayout.BalancedPlannerBalances` proves that the corrected planner
  (`Pagination.BalancedSkipPoints`) balances every even page count.
- `Pagination.BalancedAgreesOnEvenRemainder` shows the correction changes
  nothing where the source already works.

=== FILE: card_grid.dfy ===
/**
 * The integer part of `CardGenerator`: the layout constants, the way
 * `add_word` turns the placement counter `word_num` into a card slot, and
 * the counter jump of `skip_to_page_start`. The cairo drawing calls that
 * consume these numbers are not modelled.
 */
module CardGrid {

  const ColumnsPerPage: nat := 3
  const LinesPerPage: nat := 4
  /** `COLUMNS_PER_PAGE * LINES_PER_PAGE`, written out (see `DerivedConstants`). */
  const CardsPerPage: nat := 12
  const WordsPerCard: nat := 2
  /** `CARDS_PER_PAGE * WORDS_PER_CARD`, written out (see `DerivedConstants`). */
  const WordsPerPage: nat := 24

  lemma DerivedConstants()
    ensures CardsPerPage == ColumnsPerPage * LinesPerPage
    ensures WordsPerPage == CardsPerPage * WordsPerCard
  {
  }

  /** Index of the page that the counter value `wordNum` falls on. */
  function PageOf(wordNum: nat): nat
  {
    wordNum / WordsPerPage
  }

  /**
   * Everything `add_word` derives from the counter. `column` is the
   * physical column, after the flip on odd pages; `row` is the line of
   * cards the `translate` call at :71-75 moves to.
   */
  datatype Slot = Slot(
    wordInCard: nat,
    cardNum: nat,
    cardInPage: nat,
    pageNum: nat,
    row: nat,
    column: nat)
  {
    /** The test at the top of `add_word` that starts a new page. */
    predicate StartsPage()
    {
      wordInCard == 0 && cardInPage == 0
    }

    /** A page is finished (`show_page`) only when a page starts that is not the first one. */
    predicate EmitsPageBreak()
    {
      StartsPage() && cardNum != 0
    }
  }

  /** Column mirroring used on odd pages. */
  function Flip(column: nat): (r: nat)
    requires column < ColumnsPerPage
    ensures r < ColumnsPerPage
    ensures r + column == ColumnsPerPage - 1
  {
    ColumnsPerPage - 1 - column
  }

  lemma FlipInvolution(column: nat)
    requires column < ColumnsPerPage
    ensures Flip(Flip(column)) == column
  {
  }

  /** The slot `add_word` draws the word at, for counter value `wordNum`. */
  function SlotOf(wordNum: nat): (s: Slot)
    ensures s.wordInCard < WordsPerCard
    ensures s.cardInPage < CardsPerPage
    ensures s.row < LinesPerPage
    ensures s.column < ColumnsPerPage
    ensures s.pageNum == PageOf(wordNum)
    ensures s.cardNum % ColumnsPerPage == s.cardInPage % ColumnsPerPage
    ensures s.row * ColumnsPerPage + s.cardInPage % ColumnsPerPage == s.cardInPage
    ensures s.pageNum % 2 == 0 ==> s.column == s.cardInPage % ColumnsPerPage
    ensures s.pageNum % 2 == 1 ==> s.column == Flip(s.cardInPage % ColumnsPerPage)
    ensures s.StartsPage() <==> wordNum % WordsPerPage == 0
    ensures s.EmitsPageBreak() <==> wordNum % WordsPerPage == 0 && wordNum != 0
  {
    var wordInCard := wordNum % WordsPerCard;
    var cardNum := wordNum / WordsPerCard;
    var cardInPage := cardNum % CardsPerPage;
    var pageNum := cardNum / CardsPerPage;
    var column := cardNum % ColumnsPerPage;
    // `page_num & 1` on a non-negative integer is its parity
    var physical := if pageNum % 2 == 1 then Flip(column) else column;
    Slot(wordInCard, cardNum, cardInPage, pageNum, cardInPage / ColumnsPerPage, physical)
  }

  /**
   * The counter value whose word is drawn on page `page`, in row `row` and
   * physical column `column`, as word `wordInCard` of its card: the inverse
   * of `SlotOf`.
   */
  function WordNumAt(page: nat, row: nat, column: nat, wordInCard: nat): nat
    requires row < LinesPerPage && column < ColumnsPerPage && wordInCard < WordsPerCard
  {
    var logical := if page % 2 == 1 then Flip(column) else column;
    (page * CardsPerPage + row * ColumnsPerPage + logical) * WordsPerCard + wordInCard
  }

  /** A slot's physical place on paper determines the counter value. */
  lemma SlotRoundTrip(wordNum: nat)
    ensures var s := SlotOf(wordNum);
      WordNumAt(s.pageNum, s.row, s.column, s.wordInCard) == wordNum
  {
  }

  /** Every physical place on paper is the slot of exactly the counter value `WordNumAt` gives. */
  lemma PlaceRoundTrip(page: nat, row: nat, column: nat, wordInCard: nat)
    requires row < LinesPerPage && column < ColumnsPerPage && wordInCard < WordsPerCard
    ensures var s := SlotOf(WordNumAt(page, row, column, wordInCard));
      s.pageNum == page && s.row == row && s.column == column && s.wordInCard == wordInCard
  {
  }

  /** Two different counter values never share a place on paper. */
  lemma SlotsDistinct(m: nat, n: nat)
    requires m != n
    ensures var a, b := SlotOf(m), SlotOf(n);
      (a.pageNum, a.row, a.column, a.wordInCard) != (b.pageNum, b.row, b.column, b.wordInCard)
  {
    SlotRoundTrip(m);
    SlotRoundTrip(n);
  }

  /**
   * The card in position `cardInPage` of page 2m+1 lies in the same row as,
   * and the mirrored column of, the card in that position of page 2m: when
   * the sheet is turned over, the two are back to back.
   */
  lemma BackOfSheetAlignment(m: nat, cardInPage: nat, wordInCard: nat)
    requires cardInPage < CardsPerPage && wordInCard < WordsPerCard
    ensures var front := SlotOf(((2 * m) * CardsPerPage + cardInPage) * WordsPerCard + wordInCard);
      var back := SlotOf(((2 * m + 1) * CardsPerPage + cardInPage) * WordsPerCard + wordInCard);
      front.pageNum == 2 * m && back.pageNum == 2 * m + 1
      && front.cardInPage == cardInPage && back.cardInPage == cardInPage
      && back.row == front.row && back.column == Flip(front.column)
  {
    SlotOnPage(2 * m, cardInPage, wordInCard);
    SlotOnPage(2 * m + 1, cardInPage, wordInCard);
  }

  /** The counter value of card `cardInPage` of page `page` decomposes back into them. */
  lemma SlotOnPage(page: nat, cardInPage: nat, wordInCard: nat)
    requires cardInPage < CardsPerPage && wordInCard < WordsPerCard
    ensures var s := SlotOf((page * CardsPerPage + cardInPage) * WordsPerCard + wordInCard);
      s.wordInCard == wordInCard && s.cardInPage == cardInPage && s.pageNum == page
      && s.row == cardInPage / ColumnsPerPage
  {
    var cardNum := page * CardsPerPage + cardInPage;
    DivModUnique(cardNum * WordsPerCard + wordInCard, WordsPerCard, cardNum, wordInCard);
    DivModUnique(cardNum, CardsPerPage, page, cardInPage);
  }

  /** Division by `d` of `q * d + r` with `r < d` gives back `q` and `r`. */
  lemma DivModUnique(x: int, d: int, q: int, r: int)
    requires 0 < d && 0 <= r < d && x == q * d + r
    ensures x / d == q && x % d == r
  {
    var q', r' := x / d, x % d;
    if q' > q {
      MulMono(q + 1, q', d);
      assert false;
    } else if q' < q {
      MulMono(q' + 1, q, d);
      assert false;
    }
  }

  lemma MulMono(a: int, b: int, d: int)
    requires a <= b && 0 < d
    ensures a * d <= b * d
  {
    assert b * d == a * d + (b - a) * d;
  }

  /**
   * `add_word`: the slot the word is drawn at, and the counter after it.
   * The slot is the one `SlotOf` derives, so its place on paper gives the
   * counter back, and the counter moves on by exactly one.
   */
  function AddWord(wordNum: nat): (r: (Slot, nat))
    ensures r.0 == SlotOf(wordNum)
    ensures WordNumAt(r.0.pageNum, r.0.row, r.0.column, r.0.wordInCard) == wordNum
    ensures r.1 == wordNum + 1
    ensures PageOf(r.1) == PageOf(wordNum) || (r.1 % WordsPerPage == 0 && PageOf(r.1) == PageOf(wordNum) + 1)
  {
    SlotRoundTrip(wordNum);
    (SlotOf(wordNum), wordNum + 1)
  }

  /** `skip_to_page_start`: the least page start strictly after `wordNum`. */
  function SkipToPageStart(wordNum: nat): (r: nat)
    ensures r % WordsPerPage == 0
    ensures wordNum < r <= wordNum + WordsPerPage
    ensures forall m :: wordNum < m < r ==> m % WordsPerPage != 0
    ensures PageOf(r) == PageOf(wordNum) + 1
  {
    (wordNum / WordsPerPage + 1) * WordsPerPage
  }
}

=== FILE: card_layout.dfy ===
/**
 * The placement loop of `generate_pdf` (krei-kartojn.py:152-159): each
 * word, in order, is drawn at the current counter value, after a jump to
 * the next page start when the counter is a skip point. The loop is
 * modelled by the sequence of counter values the words are drawn at and
 * by the slots `add_word` derives from them; the drawing itself is not.
 */
module CardLayout {
  import opened Wrappers
  import opened CardGrid
  import opened Pagination

  /** The counter value a word is drawn at when the counter stands at `counter`. */
  function Place(counter: nat, skips: set<nat>): (p: nat)
    ensures counter <= p
    ensures counter !in skips ==> p == counter
    ensures counter in skips ==> p % WordsPerPage == 0 && PageOf(p) == PageOf(counter) + 1
  {
    if counter in skips then SkipToPageStart(counter) else counter
  }

  /**
   * The counter values `count` words are drawn at, starting from
   * `counter`: each word after the first starts from the counter
   * `add_word` left after the previous word.
   */
  function Positions(count: nat, counter: nat, skips: set<nat>): (ps: seq<nat>)
    ensures |ps| == count
    ensures count > 0 ==> ps[0] == Place(counter, skips)
    ensures forall i :: 0 <= i < |ps| ==> counter <= ps[i]
    decreases count
  {
    if count == 0 then []
    else
      var p := Place(counter, skips);
      [p] + Positions(count - 1, AddWord(p).1, skips)
  }

  /** Each word after the first is drawn from the counter `add_word` left after the previous word. */
  ghost predicate Steps(ps: seq<nat>, skips: set<nat>)
  {
    forall i, j :: 0 <= i < j < |ps| && j == i + 1 ==> ps[j] == Place(AddWord(ps[i]).1, skips)
  }

  /** The counter values `Positions` lists advance as the loop advances them. */
  lemma {:induction false} PositionsStep(count: nat, counter: nat, skips: set<nat>)
    ensures Steps(Positions(count, counter, skips), skips)
  {
    forall i | 0 <= i && i + 1 < count
      ensures Positions(count, counter, skips)[i + 1] == Place(AddWord(Positions(count, counter, skips)[i]).1, skips)
    {
      StepAt(count, counter, skips, i);
    }
  }

  lemma {:induction false} StepAt(count: nat, counter: nat, skips: set<nat>, i: nat)
    requires i + 1 < count
    ensures Positions(count, counter, skips)[i + 1] == Place(AddWord(Positions(count, counter, skips)[i]).1, skips)
  {
    var p := Place(counter, skips);
    var rest := Positions(count - 1, AddWord(p).1, skips);
    var ps := Positions(count, counter, skips);
    assert ps == [p] + rest;
    assert ps[i + 1] == rest[i];
    if i == 0 {
      assert ps[0] == p;
    } else {
      assert ps[i] == rest[i - 1];
      StepAt(count - 1, AddWord(p).1, skips, i - 1);
    }
  }

  predicate StrictlyIncreasing(ps: seq<nat>)
  {
    forall i, j :: 0 <= i < j < |ps| ==> ps[i] < ps[j]
  }

  /** Every word is drawn at a larger counter value than the words before it. */
  lemma {:induction false} PositionsIncrease(count: nat, counter: nat, skips: set<nat>)
    ensures StrictlyIncreasing(Positions(count, counter, skips))
  {
    var ps := Positions(count, counter, skips);
    if count > 0 {
      var p := Place(counter, skips);
      PositionsIncrease(count - 1, AddWord(p).1, skips);
      assert ps == [p] + Positions(count - 1, AddWord(p).1, skips);
    }
  }

  /** Where a slot is on paper: page, row, physical column and half of the card. */
  function Location(s: Slot): (nat, nat, nat, nat)
  {
    (s.pageNum, s.row, s.column, s.wordInCard)
  }

  lemma SlotsInjective()
    ensures forall m: nat, n: nat :: m != n ==> Location(SlotOf(m)) != Location(SlotOf(n))
  {
    forall m: nat, n: nat | m != n
      ensures Location(SlotOf(m)) != Location(SlotOf(n))
    {
      SlotsDistinct(m, n);
    }
  }

  /** One call of `add_word`: the word and the slot it is drawn in. */
  datatype Placement = Placement(word: string, slot: Slot)

  /** The counter values the loop uses; `skip_points=None` never jumps. */
  function SkipSet(skipPoints: Option<set<nat>>): set<nat>
  {
    if skipPoints.Some? then skipPoints.value else {}
  }

  /**
   * The placements `generate_pdf(filename, word_list, skip_points)` draws:
   * every word once, in order, and no two in the same place on paper.
   */
  function GeneratePdf(words: seq<string>, skipPoints: Option<set<nat>>): (r: seq<Placement>)
    ensures |r| == |words|
    ensures forall i :: 0 <= i < |r| ==> r[i].word == words[i]
    ensures forall i, j :: 0 <= i < j < |r| ==> Location(r[i].slot) != Location(r[j].slot)
  {
    var ps := Positions(|words|, 0, SkipSet(skipPoints));
    var r := seq(|words|, i requires 0 <= i < |words| => Placement(words[i], AddWord(ps[i]).0));
    PositionsIncrease(|words|, 0, SkipSet(skipPoints));
    PlacementsDistinct(ps, r);
    r
  }

  /** Words drawn at distinct counter values are drawn in distinct places. */
  lemma PlacementsDistinct(ps: seq<nat>, r: seq<Placement>)
    requires |r| == |ps|
    requires forall i :: 0 <= i < |r| ==> r[i].slot == SlotOf(ps[i])
    requires StrictlyIncreasing(ps)
    ensures forall i, j :: 0 <= i < j < |r| ==> Location(r[i].slot) != Location(r[j].slot)
  {
    forall i, j | 0 <= i < j < |r|
      ensures Location(r[i].slot) != Location(r[j].slot)
    {
      SlotsDistinct(ps[i], ps[j]);
    }
  }

  /** The placements are those of `Positions`, slot by slot. */
  lemma GeneratePdfSlots(words: seq<string>, skipPoints: Option<set<nat>>, i: nat)
    requires i < |words|
    ensures GeneratePdf(words, skipPoints)[i].slot == SlotOf(Positions(|words|, 0, SkipSet(skipPoints))[i])
  {
  }

  /** A word whose index a page holds is drawn on that page. */
  lemma PlacedOnPage(words: seq<string>, skipPoints: Option<set<nat>>, page: nat, lo: nat, hi: nat, i: nat)
    requires PageHolds(Positions(|words|, 0, SkipSet(skipPoints)), page, lo, hi)
    requires lo <= i < hi && i < |words|
    ensures GeneratePdf(words, skipPoints)[i].slot.pageNum == page
  {
    GeneratePdfSlots(words, skipPoints, i);
  }

  /** No skip point is the first counter value of a page. */
  predicate AvoidsPageStarts(skips: set<nat>)
  {
    forall s :: s in skips ==> s % WordsPerPage != 0
  }

  /** A stretch with no skip point in reach advances the counter one by one. */
  lemma {:induction false} Stretch(ps: seq<nat>, skips: set<nat>, i: nat, m: nat)
    requires Steps(ps, skips)
    requires i + m < |ps|
    requires forall c :: ps[i] < c <= ps[i] + m ==> c !in skips
    ensures forall k :: i <= k <= i + m ==> ps[k] == ps[i] + (k - i)
    decreases m
  {
    if m > 0 {
      Stretch(ps, skips, i, m - 1);
      assert ps[i + m - 1] == ps[i] + (m - 1);
      assert ps[i + m] == Place(AddWord(ps[i + m - 1]).1, skips);
    }
  }

  /** Without skip points word `i` is drawn at counter value `i`. */
  lemma PositionsWithoutSkips(count: nat)
    ensures forall i :: 0 <= i < count ==> Positions(count, 0, {})[i] == i
  {
    if count > 0 {
      PositionsStep(count, 0, {});
      Stretch(Positions(count, 0, {}), {}, 0, count - 1);
    }
  }

  /** `generate_pdf` without skip points draws word `i` in the slot of counter value `i`. */
  lemma SingleSidedLayout(words: seq<string>)
    ensures forall i :: 0 <= i < |words| ==> GeneratePdf(words, None)[i].slot == SlotOf(i)
  {
    PositionsWithoutSkips(|words|);
  }

  /**
   * Consecutive words are on the same or the next page, and a word that
   * moves to the next page is drawn at that page's first slot.
   */
  ghost predicate PagesAdvanceByOne(ps: seq<nat>)
  {
    forall i, j :: 0 <= i < j < |ps| && j == i + 1 ==>
      && PageOf(ps[i]) <= PageOf(ps[j]) <= PageOf(ps[i]) + 1
      && (PageOf(ps[j]) != PageOf(ps[i]) ==> ps[j] % WordsPerPage == 0)
  }

  /**
   * With skip points that avoid page starts, the first word is on page 0
   * and pages advance one at a time: no page index is left out.
   */
  lemma NoBlankPages(count: nat, skips: set<nat>)
    requires AvoidsPageStarts(skips)
    ensures count > 0 ==> Positions(count, 0, skips)[0] == 0
    ensures PagesAdvanceByOne(Positions(count, 0, skips))
  {
    var ps := Positions(count, 0, skips);
    PositionsStep(count, 0, skips);
    forall i, j | 0 <= i < j < |ps| && j == i + 1
      ensures PageOf(ps[i]) <= PageOf(ps[j]) <= PageOf(ps[i]) + 1
      ensures PageOf(ps[j]) != PageOf(ps[i]) ==> ps[j] % WordsPerPage == 0
    {
      var c := AddWord(ps[i]).1;
      assert ps[j] == Place(c, skips);
      if c in skips {
        assert PageOf(c) == PageOf(ps[i]);
      } else {
        assert PageOf(c) != PageOf(ps[i]) ==> c % WordsPerPage == 0;
      }
    }
  }

  /**
   * `add_word` emits a page break for a word exactly when it lands on the
   * next page after the previous word, and otherwise stays on that word's
   * page.
   */
  ghost predicate BreaksMatchPages(ps: seq<nat>)
  {
    forall i, j :: 0 <= i < j < |ps| && j == i + 1 ==>
      && (SlotOf(ps[j]).EmitsPageBreak() <==> SlotOf(ps[j]).pageNum == SlotOf(ps[i]).pageNum + 1)
      && (!SlotOf(ps[j]).EmitsPageBreak() <==> SlotOf(ps[j]).pageNum == SlotOf(ps[i]).pageNum)
  }

  /**
   * A page break is emitted exactly when a word lands on a later page than
   * the word before it, and never for the first word; so the k-th page of
   * the document is drawn with page index k and its columns flipped when k
   * is odd.
   */
  lemma PageBreaksMatchPages(count: nat, skips: set<nat>)
    requires AvoidsPageStarts(skips)
    ensures count > 0 ==> SlotOf(Positions(count, 0, skips)[0]).pageNum == 0
    ensures count > 0 ==> !SlotOf(Positions(count, 0, skips)[0]).EmitsPageBreak()
    ensures BreaksMatchPages(Positions(count, 0, skips))
  {
    var ps := Positions(count, 0, skips);
    NoBlankPages(count, skips);
    PositionsIncrease(count, 0, skips);
    forall i, j | 0 <= i < j < |ps| && j == i + 1
      ensures SlotOf(ps[j]).EmitsPageBreak() <==> SlotOf(ps[j]).pageNum == SlotOf(ps[i]).pageNum + 1
      ensures !SlotOf(ps[j]).EmitsPageBreak() <==> SlotOf(ps[j]).pageNum == SlotOf(ps[i]).pageNum
    {
      BreakStep(ps[i], ps[j]);
    }
  }

  /** A step that moves at most one page, and only onto a page start, breaks the page exactly when it moves. */
  lemma BreakStep(a: nat, b: nat)
    requires a < b && PageOf(a) <= PageOf(b) <= PageOf(a) + 1
    requires PageOf(b) != PageOf(a) ==> b % WordsPerPage == 0
    ensures SlotOf(b).EmitsPageBreak() <==> SlotOf(b).pageNum == SlotOf(a).pageNum + 1
    ensures !SlotOf(b).EmitsPageBreak() <==> SlotOf(b).pageNum == SlotOf(a).pageNum
  {
    if b % WordsPerPage == 0 {
      PageStartAfter(a, b);
    }
  }

  /** A page start strictly after `a` lies on a later page. */
  lemma PageStartAfter(a: nat, b: nat)
    requires a < b && b % WordsPerPage == 0
    ensures PageOf(a) < PageOf(b)
  {
  }

  /** Page `page` holds exactly the words with indices `lo` to `hi - 1`. */
  ghost predicate PageHolds(ps: seq<nat>, page: nat, lo: nat, hi: nat)
  {
    forall i :: 0 <= i < |ps| ==> (PageOf(ps[i]) == page <==> lo <= i < hi)
  }

  lemma PageOfBetween(x: nat, page: nat)
    requires page * WordsPerPage <= x < (page + 1) * WordsPerPage
    ensures PageOf(x) == page
  {
    DivModUnique(x, WordsPerPage, page, x - page * WordsPerPage);
  }

  /**
   * After a jump at skip point `ps[a - 1] + 1`, with no skip point in reach
   * for the next `m` words, those words follow the next page start.
   */
  lemma {:induction false} Jump(ps: seq<nat>, skips: set<nat>, a: nat, m: nat)
    requires Steps(ps, skips)
    requires 0 < a && a + m < |ps|
    requires ps[a - 1] + 1 in skips
    requires forall c :: SkipToPageStart(ps[a - 1] + 1) < c <= SkipToPageStart(ps[a - 1] + 1) + m ==> c !in skips
    ensures forall k :: a <= k <= a + m ==> ps[k] == SkipToPageStart(ps[a - 1] + 1) + (k - a)
  {
    assert ps[a] == Place(AddWord(ps[a - 1]).1, skips);
    Stretch(ps, skips, a, m);
  }

  /**
   * A run with one jump, at counter value `x`, and no skip point in reach
   * before or after it: the words before `x` keep their index, the rest
   * follow the next page start.
   */
  lemma {:induction false} OneJump(ps: seq<nat>, skips: set<nat>, x: nat)
    requires Steps(ps, skips) && 0 < x < |ps| && ps[0] == 0
    requires forall c :: c < x ==> c !in skips
    requires x in skips
    requires forall c :: SkipToPageStart(x) < c < SkipToPageStart(x) + (|ps| - x) ==> c !in skips
    ensures forall i :: 0 <= i < x ==> ps[i] == i
    ensures forall i :: x <= i < |ps| ==> ps[i] == SkipToPageStart(x) + (i - x)
  {
    Stretch(ps, skips, 0, x - 1);
    assert ps[x - 1] + 1 == x;
    Jump(ps, skips, x, |ps| - 1 - x);
  }

  /** A run with a second jump, at counter value `z`, reached by word `x + (z - y)`. */
  lemma {:induction false} TwoJumps(ps: seq<nat>, skips: set<nat>, x: nat, z: nat)
    requires Steps(ps, skips) && ps != [] && ps[0] == 0
    requires 0 < x && x in skips
    requires forall c :: c < x ==> c !in skips
    requires SkipToPageStart(x) < z && z in skips
    requires forall c :: SkipToPageStart(x) < c < z ==> c !in skips
    requires x + (z - SkipToPageStart(x)) < |ps|
    requires var k := x + (z - SkipToPageStart(x));
      forall c :: SkipToPageStart(z) < c < SkipToPageStart(z) + (|ps| - k) ==> c !in skips
    ensures forall i :: 0 <= i < x ==> ps[i] == i
    ensures forall i :: x <= i < x + (z - SkipToPageStart(x)) ==> ps[i] == SkipToPageStart(x) + (i - x)
    ensures forall i :: x + (z - SkipToPageStart(x)) <= i < |ps| ==>
                ps[i] == SkipToPageStart(z) + (i - (x + (z - SkipToPageStart(x))))
  {
    var y := SkipToPageStart(x);
    var k := x + (z - y);
    Stretch(ps, skips, 0, x - 1);
    assert ps[x - 1] + 1 == x;
    Jump(ps, skips, x, k - 1 - x);
    assert ps[k - 1] + 1 == z;
    Jump(ps, skips, k, |ps| - 1 - k);
  }

  /** How `W` splits into full pages and the words on the last page. */
  lemma PageCountSplit(w: nat)
    requires w > 0
    ensures var n := PageCount(w);
      w == (n - 1) * WordsPerPage + ((w + WordsPerPage - 1) % WordsPerPage + 1)
      && (w % WordsPerPage == 0 ==> w == n * WordsPerPage)
      && (w % WordsPerPage != 0 ==> w == (n - 1) * WordsPerPage + w % WordsPerPage)
  {
  }

  lemma SkipFrom(page: nat, offset: nat)
    requires offset < WordsPerPage
    ensures SkipToPageStart(page * WordsPerPage + offset) == (page + 1) * WordsPerPage
  {
    DivModUnique(page * WordsPerPage + offset, WordsPerPage, page, offset);
  }

  /** Words `lo` to `hi - 1` drawn one after another from `base`, all within page `page`. */
  lemma SegmentOnPage(ps: seq<nat>, lo: nat, hi: nat, base: nat, page: nat)
    requires lo <= hi <= |ps|
    requires forall i :: lo <= i < hi ==> ps[i] == base + (i - lo)
    requires page * WordsPerPage <= base && base + (hi - lo) <= (page + 1) * WordsPerPage
    ensures forall i :: lo <= i < hi ==> PageOf(ps[i]) == page
  {
    forall i | lo <= i < hi
      ensures PageOf(ps[i]) == page
    {
      PageOfBetween(ps[i], page);
    }
  }

  /** Words drawn at their own index before page `page` starts lie on earlier pages. */
  lemma PrefixBeforePage(ps: seq<nat>, hi: nat, page: nat)
    requires hi <= |ps| && hi <= page * WordsPerPage
    requires forall i :: 0 <= i < hi ==> ps[i] == i
    ensures forall i :: 0 <= i < hi ==> PageOf(ps[i]) < page
  {
  }

  /**
   * The planner as written, for an even page count: just the two pair
   * points, `s` words into pages `m` and `m + 1`, where `m` is
   * `last_page_pair` and `s` is `(W % P + P) / 2`. That is half of the
   * pair's words when the last page is not full (rounded down), but only a
   * quarter of them when it is full, because the pair then holds `2 * P`.
   */
  lemma EvenPlan(w: nat)
    requires PageCount(w) >= 2 && PageCount(w) % 2 == 0
    ensures var m, s := LastPagePair(PageCount(w)), PageSplitPoint(w);
      && m + 2 == PageCount(w)
      && SkipPoints(w) == {m * WordsPerPage + s, (m + 1) * WordsPerPage + s}
      && WordsPerPage / 2 <= s < WordsPerPage
      && w - m * WordsPerPage == (if w % WordsPerPage == 0 then 2 * WordsPerPage else w % WordsPerPage + WordsPerPage)
      && 2 * s == w % WordsPerPage + WordsPerPage - (w % WordsPerPage) % 2
  {
    PlannerBounds(w);
    PageCountSplit(w);
    assert LastPagePair(PageCount(w)) == PageCount(w) - 2;
  }

  /**
   * Counter values that run from 0 up to `x`, then from the start of page
   * `m + 1` up to word `k`, then from the start of page `m + 2`: the pages
   * before `m` are full and pages `m`, `m + 1` and `m + 2` take the three
   * stretches.
   */
  lemma ThreeStretches(ps: seq<nat>, m: nat, x: nat, k: nat)
    requires m * WordsPerPage <= x < (m + 1) * WordsPerPage
    requires x <= k <= |ps| && k - x <= WordsPerPage && |ps| - k <= WordsPerPage
    requires forall i :: 0 <= i < x ==> ps[i] == i
    requires forall i :: x <= i < k ==> ps[i] == (m + 1) * WordsPerPage + (i - x)
    requires forall i :: k <= i < |ps| ==> ps[i] == (m + 2) * WordsPerPage + (i - k)
    ensures forall i :: 0 <= i < m * WordsPerPage ==> ps[i] == i
    ensures forall i :: 0 <= i < |ps| ==> PageOf(ps[i]) <= (if k == |ps| then m + 1 else m + 2)
    ensures PageHolds(ps, m, m * WordsPerPage, x)
    ensures PageHolds(ps, m + 1, x, k)
    ensures PageHolds(ps, m + 2, k, |ps|)
  {
    PrefixBeforePage(ps, m * WordsPerPage, m);
    SegmentOnPage(ps, m * WordsPerPage, x, m * WordsPerPage, m);
    SegmentOnPage(ps, x, k, (m + 1) * WordsPerPage, m + 1);
    SegmentOnPage(ps, k, |ps|, (m + 2) * WordsPerPage, m + 2);
  }

  /**
   * A run whose only jump is at counter value `m * P + s`: pages before `m`
   * are full, page `m` takes the words up to that point and page `m + 1`
   * the rest.
   */
  lemma OneJumpPages(w: nat, skips: set<nat>, m: nat, s: nat)
    requires 0 < s < WordsPerPage
    requires m * WordsPerPage + s < w <= m * WordsPerPage + s + WordsPerPage
    requires m * WordsPerPage + s in skips
    requires forall c :: c < m * WordsPerPage + s ==> c !in skips
    requires forall c :: (m + 1) * WordsPerPage < c < (m + 1) * WordsPerPage + (w - m * WordsPerPage - s) ==> c !in skips
    ensures var ps, x := Positions(w, 0, skips), m * WordsPerPage + s;
      && (forall i :: 0 <= i < m * WordsPerPage ==> ps[i] == i)
      && (forall i :: 0 <= i < w ==> PageOf(ps[i]) <= m + 1)
      && PageHolds(ps, m, m * WordsPerPage, x)
      && PageHolds(ps, m + 1, x, w)
  {
    var x := m * WordsPerPage + s;
    SkipFrom(m, s);
    PositionsStep(w, 0, skips);
    OneJump(Positions(w, 0, skips), skips, x);
    assert forall i :: 0 <= i < x ==> Positions(w, 0, skips)[i] == i;
    assert forall i :: x <= i < w ==> Positions(w, 0, skips)[i] == (m + 1) * WordsPerPage + (i - x);
    ThreeStretches(Positions(w, 0, skips), m, x, w);
  }

  /**
   * A run with jumps at counter values `m * P + s` and `(m + 1) * P + s`:
   * pages `m` and `m + 1` take `s` words each past the full pages before
   * them, and page `m + 2` takes the rest.
   */
  lemma TwoJumpPages(w: nat, skips: set<nat>, m: nat, s: nat)
    requires 0 < s < WordsPerPage
    requires m * WordsPerPage + 2 * s < w <= m * WordsPerPage + 2 * s + WordsPerPage
    requires m * WordsPerPage + s in skips && (m + 1) * WordsPerPage + s in skips
    requires forall c :: c < m * WordsPerPage + s ==> c !in skips
    requires forall c :: (m + 1) * WordsPerPage < c < (m + 1) * WordsPerPage + s ==> c !in skips
    requires forall c :: (m + 2) * WordsPerPage < c < (m + 2) * WordsPerPage + (w - m * WordsPerPage - 2 * s) ==> c !in skips
    ensures var ps, x := Positions(w, 0, skips), m * WordsPerPage + s;
      && (forall i :: 0 <= i < m * WordsPerPage ==> ps[i] == i)
      && PageHolds(ps, m, m * WordsPerPage, x)
      && PageHolds(ps, m + 1, x, x + s)
      && PageHolds(ps, m + 2, x + s, w)
  {
    var x, z := m * WordsPerPage + s, (m + 1) * WordsPerPage + s;
    SkipFrom(m, s);
    SkipFrom(m + 1, s);
    PositionsStep(w, 0, skips);
    TwoJumps(Positions(w, 0, skips), skips, x, z);
    assert forall i :: 0 <= i < x ==> Positions(w, 0, skips)[i] == i;
    assert forall i :: x <= i < x + s ==> Positions(w, 0, skips)[i] == (m + 1) * WordsPerPage + (i - x);
    assert forall i :: x + s <= i < w ==> Positions(w, 0, skips)[i] == (m + 2) * WordsPerPage + (i - (x + s));
    ThreeStretches(Positions(w, 0, skips), m, x, x + s);
  }

  /**
   * The balancing the comment at :165-168 promises, for the planner as
   * written, when the page count is even and the last page holds an even,
   * non-zero number of words: every page before the pair `m` and `m + 1`
   * (`last_page_pair`) is full, the pair holds `(W % P + P) / 2` words on
   * each page, and no word goes past page `m + 1`.
   */
  lemma BalancedLastPair(w: nat)
    requires PageCount(w) >= 2 && PageCount(w) % 2 == 0
    requires w % WordsPerPage != 0 && (w % WordsPerPage) % 2 == 0
    ensures var m, ps := LastPagePair(PageCount(w)), Positions(w, 0, SkipPoints(w));
      var half := (w % WordsPerPage + WordsPerPage) / 2;
      var x := m * WordsPerPage + half;
      && x + half == w
      && m + 2 == PageCount(w)
      && (forall i :: 0 <= i < m * WordsPerPage ==> ps[i] == i)
      && (forall i :: 0 <= i < w ==> PageOf(ps[i]) <= m + 1)
      && PageHolds(ps, m, m * WordsPerPage, x)
      && PageHolds(ps, m + 1, x, w)
  {
    EvenPlan(w);
    OneJumpPages(w, SkipPoints(w), LastPagePair(PageCount(w)), PageSplitPoint(w));
  }

  /**
   * As written, an odd number of words on the last page with an even page
   * count leaves the last word alone on an extra page: pages `m` and
   * `m + 1` take `(W % P + P) / 2` words each and page `m + 2` takes one.
   */
  lemma OddRemainderSpills(w: nat)
    requires PageCount(w) >= 2 && PageCount(w) % 2 == 0
    requires (w % WordsPerPage) % 2 == 1
    ensures var m, ps := LastPagePair(PageCount(w)), Positions(w, 0, SkipPoints(w));
      var half := (w % WordsPerPage + WordsPerPage) / 2;
      var x := m * WordsPerPage + half;
      && x + half + 1 == w
      && m + 2 == PageCount(w)
      && (forall i :: 0 <= i < m * WordsPerPage ==> ps[i] == i)
      && PageHolds(ps, m, m * WordsPerPage, x)
      && PageHolds(ps, m + 1, x, x + half)
      && PageHolds(ps, m + 2, x + half, w)
  {
    var m, s := LastPagePair(PageCount(w)), PageSplitPoint(w);
    EvenPlan(w);
    assert w - m * WordsPerPage == w % WordsPerPage + WordsPerPage;
    assert 2 * s + 1 == w - m * WordsPerPage;
    TwoJumpPages(w, SkipPoints(w), m, s);
  }

  /**
   * As written, a last page that is exactly full with an even page count
   * is split across pages `m` and `m + 1` with half a page each, and a
   * whole page of words is pushed onto an extra page `m + 2`.
   */
  lemma FullLastPageOverflows(w: nat)
    requires PageCount(w) >= 2 && PageCount(w) % 2 == 0
    requires w % WordsPerPage == 0
    ensures var m, ps := LastPagePair(PageCount(w)), Positions(w, 0, SkipPoints(w));
      var half := WordsPerPage / 2;
      var x := m * WordsPerPage + half;
      && x + half + WordsPerPage == w
      && m + 2 == PageCount(w)
      && (forall i :: 0 <= i < m * WordsPerPage ==> ps[i] == i)
      && PageHolds(ps, m, m * WordsPerPage, x)
      && PageHolds(ps, m + 1, x, x + half)
      && PageHolds(ps, m + 2, x + half, w)
  {
    var m, s := LastPagePair(PageCount(w)), PageSplitPoint(w);
    EvenPlan(w);
    assert s == WordsPerPage / 2 && w - m * WordsPerPage == 2 * WordsPerPage;
    TwoJumpPages(w, SkipPoints(w), m, s);
  }

  /**
   * The corrected planner, for an even page count: the pair `m`, `m + 1`
   * holds `2 * s` or `2 * s - 1` words, and the two pair points are only
   * planned when the first page of the pair is not full.
   */
  lemma BalancedEvenPlan(w: nat)
    requires PageCount(w) >= 2 && PageCount(w) % 2 == 0
    ensures var m, s := LastPagePair(PageCount(w)), BalancedSplitPoint(w);
      && m + 2 == PageCount(w)
      && s == (w - m * WordsPerPage + 1) / 2
      && WordsPerPage / 2 < s <= WordsPerPage
      && (s < WordsPerPage ==> BalancedSkipPoints(w) == {m * WordsPerPage + s, (m + 1) * WordsPerPage + s})
      && (s == WordsPerPage ==> BalancedSkipPoints(w) == {})
      && WordsPerPage < w - m * WordsPerPage <= 2 * WordsPerPage
  {
    PageCountSplit(w);
    assert LastPagePair(PageCount(w)) == PageCount(w) - 2;
  }

  /**
   * The corrected planner balances every even page count: all pages before
   * the pair `m` and `m + 1` are full, the pair shares the remaining words
   * with the larger half first, and no word goes past page `m + 1`.
   */
  lemma BalancedPlannerBalances(w: nat)
    requires PageCount(w) >= 2 && PageCount(w) % 2 == 0
    ensures var m, ps := LastPagePair(PageCount(w)), Positions(w, 0, BalancedSkipPoints(w));
      var x := m * WordsPerPage + BalancedSplitPoint(w);
      && w - x <= x - m * WordsPerPage <= w - x + 1
      && m + 2 == PageCount(w)
      && (forall i :: 0 <= i < m * WordsPerPage ==> ps[i] == i)
      && (forall i :: 0 <= i < w ==> PageOf(ps[i]) <= m + 1)
      && PageHolds(ps, m, m * WordsPerPage, x)
      && PageHolds(ps, m + 1, x, w)
  {
    var m, s := LastPagePair(PageCount(w)), BalancedSplitPoint(w);
    BalancedEvenPlan(w);
    if s < WordsPerPage {
      OneJumpPages(w, BalancedSkipPoints(w), m, s);
    } else {
      NoJumpPages(w, m + 1);
    }
  }

  /** Without skip points, `w` words ending on page `m` fill the pages before it. */
  lemma NoJumpPages(w: nat, m: nat)
    requires m * WordsPerPage < w <= (m + 1) * WordsPerPage
    ensures var ps := Positions(w, 0, {});
      && (forall i :: 0 <= i < m * WordsPerPage ==> ps[i] == i)
      && (forall i :: 0 <= i < w ==> PageOf(ps[i]) <= m)
      && PageHolds(ps, m, m * WordsPerPage, w)
  {
    PositionsWithoutSkips(w);
    var ps := Positions(w, 0, {});
    PrefixBeforePage(ps, m * WordsPerPage, m);
    SegmentOnPage(ps, m * WordsPerPage, w, m * WordsPerPage, m);
  }
}

=== FILE: krucindiko.dfy ===
/**
 * The script body of krei-kartojn.py:127-184: read the word list, draw it
 * once single-sided, plan the skip points for double-sided printing and
 * draw it again with them. The two PDF files are modelled by the
 * placements they receive.
 */
module Krucindiko {
  import opened Wrappers
  import opened WordSource
  import opened CardGrid
  import opened Pagination
  import opened CardLayout

  /** What a run produces: the warnings on standard error and the two documents. */
  datatype Output = Output(warnings: seq<Warning>, singleSided: seq<Placement>, doubleSided: seq<Placement>)

  /**
   * A run over the lines of `vortoj.tsv`. Both documents place the same
   * words in the same order; those words are exactly the words some line
   * after the header yields, each once, in the order of their first
   * lines; the single-sided document draws word `i` in the slot of
   * counter value `i`. The warnings name every repeated line and only
   * those, in line order.
   */
  function Run(lines: seq<string>): (o: Output)
    ensures |o.singleSided| == |o.doubleSided|
    ensures forall i :: 0 <= i < |o.singleSided| ==> o.singleSided[i].word == o.doubleSided[i].word
    ensures forall w :: (exists i :: 0 <= i < |o.doubleSided| && o.doubleSided[i].word == w)
                        <==> FirstLine(Yields(lines), w).Some?
    ensures forall i, j :: 0 <= i < j < |o.doubleSided| ==> o.doubleSided[i].word != o.doubleSided[j].word
    ensures forall p, q :: 0 <= p < q < |o.doubleSided| ==>
              FirstLine(Yields(lines), o.doubleSided[p].word).Some? &&
              FirstLine(Yields(lines), o.doubleSided[q].word).Some? &&
              FirstLine(Yields(lines), o.doubleSided[p].word).value < FirstLine(Yields(lines), o.doubleSided[q].word).value
    ensures forall i :: 0 <= i < |o.singleSided| ==> o.singleSided[i].slot == SlotOf(i)
    ensures WarningsSound(Yields(lines), o.warnings)
    ensures WarningsComplete(Yields(lines), o.warnings)
  {
    var r := ReadLines(lines);
    ReadLinesIsDedup(lines);
    DedupWords(Yields(lines));
    DedupWarningsSound(Yields(lines));
    DedupWarningsComplete(Yields(lines));
    SingleSidedLayout(r.words);
    var doubleSided := GeneratePdf(r.words, Some(SkipPoints(|r.words|)));
    DrawnAsRead(Yields(lines), r.words, doubleSided);
    Output(r.warnings, GeneratePdf(r.words, None), doubleSided)
  }

  /** A document that draws the words kept by the loop draws each first occurrence once, in line order. */
  lemma DrawnAsRead(ys: seq<Option<string>>, words: seq<string>, drawn: seq<Placement>)
    requires WordsSpec(ys, words)
    requires |drawn| == |words| && forall i :: 0 <= i < |drawn| ==> drawn[i].word == words[i]
    ensures forall w :: (exists i :: 0 <= i < |drawn| && drawn[i].word == w) <==> FirstLine(ys, w).Some?
    ensures forall i, j :: 0 <= i < j < |drawn| ==> drawn[i].word != drawn[j].word
    ensures forall p, q :: 0 <= p < q < |drawn| ==>
              FirstLine(ys, drawn[p].word).Some? && FirstLine(ys, drawn[q].word).Some? &&
              FirstLine(ys, drawn[p].word).value < FirstLine(ys, drawn[q].word).value
  {
    forall w | FirstLine(ys, w).Some?
      ensures exists i :: 0 <= i < |drawn| && drawn[i].word == w
    {
      var i :| 0 <= i < |words| && words[i] == w;
      assert drawn[i].word == w;
    }
  }

  /**
   * In the double-sided document page breaks still follow the pages: the
   * planner never plans a jump from a page start, so no page is left
   * blank and the k-th page drawn has page index k.
   */
  lemma DoubleSidedPagesNumbered(lines: seq<string>)
    ensures var words := ReadLines(lines).words;
      BreaksMatchPages(Positions(|words|, 0, SkipPoints(|words|)))
  {
    var words := ReadLines(lines).words;
    PageBreaksMatchPages(|words|, SkipPoints(|words|));
  }

  /** The page word `i` of the double-sided document is drawn on. */
  function DoubleSidedPage(words: seq<string>, i: nat): nat
    requires i < |words|
  {
    GeneratePdf(words, Some(SkipPoints(|words|)))[i].slot.pageNum
  }

  /**
   * Any 25 words: the double-sided document draws the last word on page
   * 2, a third page, although 25 words need only two.
   */
  lemma TwentyFiveWordsSpill(words: seq<string>)
    requires |words| == 25
    ensures PageCount(|words|) == 2
    ensures DoubleSidedPage(words, 11) == 0 && DoubleSidedPage(words, 12) == 1
    ensures DoubleSidedPage(words, 23) == 1 && DoubleSidedPage(words, 24) == 2
  {
    assert PageCount(|words|) == 2;
    SpillPages(|words|);
    PlacedOnPage(words, Some(SkipPoints(|words|)), 0, 0, 12, 11);
    PlacedOnPage(words, Some(SkipPoints(|words|)), 1, 12, 24, 12);
    PlacedOnPage(words, Some(SkipPoints(|words|)), 1, 12, 24, 23);
    PlacedOnPage(words, Some(SkipPoints(|words|)), 2, 24, 25, 24);
  }

  /** Two pages' worth of words with one word on the last page: pages of 12, 12 and 1. */
  lemma SpillPages(w: nat)
    requires PageCount(w) == 2 && w % WordsPerPage == 1
    ensures w == 25
    ensures PageHolds(Positions(w, 0, SkipPoints(w)), 0, 0, 12)
    ensures PageHolds(Positions(w, 0, SkipPoints(w)), 1, 12, 24)
    ensures PageHolds(Positions(w, 0, SkipPoints(w)), 2, 24, w)
  {
    assert LastPagePair(PageCount(w)) == 0;
    assert (w % WordsPerPage + WordsPerPage) / 2 == 12;
    OddRemainderSpills(w);
    assert PageHolds(Positions(w, 0, SkipPoints(w)), LastPagePair(PageCount(w)), 0, 12);
    assert PageHolds(Positions(w, 0, SkipPoints(w)), LastPagePair(PageCount(w)) + 1, 12, 24);
    assert PageHolds(Positions(w, 0, SkipPoints(w)), LastPagePair(PageCount(w)) + 2, 24, w);
  }

  /**
   * Any 48 words: the double-sided document draws half a page on pages 0
   * and 1 and pushes the last 24 words onto page 2, although 48 words
   * fill exactly two pages.
   */
  lemma FortyEightWordsOverflow(words: seq<string>)
    requires |words| == 48
    ensures PageCount(|words|) == 2
    ensures DoubleSidedPage(words, 11) == 0 && DoubleSidedPage(words, 12) == 1
    ensures DoubleSidedPage(words, 23) == 1 && DoubleSidedPage(words, 24) == 2
    ensures DoubleSidedPage(words, 47) == 2
  {
    assert PageCount(|words|) == 2;
    OverflowPages(|words|);
    PlacedOnPage(words, Some(SkipPoints(|words|)), 0, 0, 12, 11);
    PlacedOnPage(words, Some(SkipPoints(|words|)), 1, 12, 24, 12);
    PlacedOnPage(words, Some(SkipPoints(|words|)), 1, 12, 24, 23);
    PlacedOnPage(words, Some(SkipPoints(|words|)), 2, 24, 48, 24);
    PlacedOnPage(words, Some(SkipPoints(|words|)), 2, 24, 48, 47);
  }

  /** Two full pages of words: pages of 12, 12 and 24. */
  lemma OverflowPages(w: nat)
    requires PageCount(w) == 2 && w % WordsPerPage == 0
    ensures w == 48
    ensures PageHolds(Positions(w, 0, SkipPoints(w)), 0, 0, 12)
    ensures PageHolds(Positions(w, 0, SkipPoints(w)), 1, 12, 24)
    ensures PageHolds(Positions(w, 0, SkipPoints(w)), 2, 24, w)
  {
    assert LastPagePair(PageCount(w)) == 0;
    FullLastPageOverflows(w);
    assert PageHolds(Positions(w, 0, SkipPoints(w)), LastPagePair(PageCount(w)), 0, 12);
    assert PageHolds(Positions(w, 0, SkipPoints(w)), LastPagePair(PageCount(w)) + 1, 12, 24);
    assert PageHolds(Positions(w, 0, SkipPoints(w)), LastPagePair(PageCount(w)) + 2, 24, w);
  }

  /** Any 30 words: the double-sided document puts 15 on each page. */
  lemma ThirtyWordsBalance(words: seq<string>)
    requires |words| == 30
    ensures DoubleSidedPage(words, 14) == 0 && DoubleSidedPage(words, 15) == 1
    ensures DoubleSidedPage(words, 29) == 1
  {
    assert PageCount(|words|) == 2 && |words| % WordsPerPage == 6 && LastPagePair(2) == 0;
    BalancedLastPair(|words|);
    assert PageHolds(Positions(|words|, 0, SkipPoints(|words|)), 0, 0, 15);
    assert PageHolds(Positions(|words|, 0, SkipPoints(|words|)), 1, 15, 30);
    PlacedOnPage(words, Some(SkipPoints(|words|)), 0, 0, 15, 14);
    PlacedOnPage(words, Some(SkipPoints(|words|)), 1, 15, 30, 15);
    PlacedOnPage(words, Some(SkipPoints(|words|)), 1, 15, 30, 29);
  }

  /** The page word `i` is drawn on with the corrected planner. */
  function CorrectedPage(words: seq<string>, i: nat): nat
    requires i < |words|
  {
    GeneratePdf(words, Some(BalancedSkipPoints(|words|)))[i].slot.pageNum
  }

  /** The corrected planner on any 25 words: 13 and 12 on two pages. */
  lemma TwentyFiveWordsCorrected(words: seq<string>)
    requires |words| == 25
    ensures CorrectedPage(words, 12) == 0 && CorrectedPage(words, 13) == 1
    ensures CorrectedPage(words, 24) == 1
  {
    assert PageCount(|words|) == 2 && LastPagePair(2) == 0 && BalancedSplitPoint(|words|) == 13;
    BalancedPlannerBalances(|words|);
    assert PageHolds(Positions(|words|, 0, BalancedSkipPoints(|words|)), 0, 0, 13);
    assert PageHolds(Positions(|words|, 0, BalancedSkipPoints(|words|)), 1, 13, 25);
    PlacedOnPage(words, Some(BalancedSkipPoints(|words|)), 0, 0, 13, 12);
    PlacedOnPage(words, Some(BalancedSkipPoints(|words|)), 1, 13, 25, 13);
    PlacedOnPage(words, Some(BalancedSkipPoints(|words|)), 1, 13, 25, 24);
  }

  /** The corrected planner on any 48 words: two full pages. */
  lemma FortyEightWordsCorrected(words: seq<string>)
    requires |words| == 48
    ensures CorrectedPage(words, 23) == 0 && CorrectedPage(words, 24) == 1
    ensures CorrectedPage(words, 47) == 1
  {
    assert PageCount(|words|) == 2 && LastPagePair(2) == 0 && BalancedSplitPoint(|words|) == 24;
    BalancedPlannerBalances(|words|);
    assert PageHolds(Positions(|words|, 0, BalancedSkipPoints(|words|)), 0, 0, 24);
    assert PageHolds(Positions(|words|, 0, BalancedSkipPoints(|words|)), 1, 24, 48);
    PlacedOnPage(words, Some(BalancedSkipPoints(|words|)), 0, 0, 24, 23);
    PlacedOnPage(words, Some(BalancedSkipPoints(|words|)), 1, 24, 48, 24);
    PlacedOnPage(words, Some(BalancedSkipPoints(|words|)), 1, 24, 48, 47);
  }
}

=== FILE: pagination.dfy ===
/**
 * The skip-point planner of krei-kartojn.py:163-182. From the number of
 * words it computes the page count and the counter values at which the
 * double-sided run jumps to the next page, so that the last pair of pages
 * is balanced and an odd last page is split in half. `BalancedSkipPoints`
 * is the planner with the two defects noted in the README corrected.
 */
module Pagination {
  import opened CardGrid

  /** `(W + WORDS_PER_PAGE - 1) // WORDS_PER_PAGE`: the pages `W` words fill. */
  function PageCount(w: nat): (n: nat)
    ensures w <= n * WordsPerPage
    ensures w > 0 ==> n >= 1 && (n - 1) * WordsPerPage < w
    ensures w == 0 ==> n == 0
  {
    (w + WordsPerPage - 1) / WordsPerPage
  }

  /** Python's `n & ~1` on a non-negative `n`: the even number among `n - 1` and `n`. */
  function ClearLowBit(n: nat): (r: nat)
    ensures r % 2 == 0 && r <= n < r + 2
  {
    n - n % 2
  }

  /** `page_split_point`: half of `words_in_last_two_pages`, rounded down. */
  function PageSplitPoint(w: nat): nat
  {
    (w % WordsPerPage + WordsPerPage) / 2
  }

  /** `last_page_pair`: the first page of the pair that gets balanced. */
  function LastPagePair(n: nat): nat
    requires n >= 2
  {
    ClearLowBit(n) - 2
  }

  /** The point added for an odd page count, half-way through the last page. */
  function OddPagePoint(n: nat): nat
    requires n >= 1
  {
    (n - 1) * WordsPerPage + WordsPerPage / 2
  }

  /** The pair points, given the page count `n` and the split point `split`. */
  function PairPoints(n: nat, split: nat): set<nat>
  {
    if n >= 2 then
      var pair := LastPagePair(n);
      {pair * WordsPerPage + split, (pair + 1) * WordsPerPage + split}
    else {}
  }

  function OddPoints(n: nat): set<nat>
  {
    if n % 2 == 1 then {OddPagePoint(n)} else {}
  }

  /** `skip_points` as the source builds it. */
  function SkipPoints(w: nat): (r: set<nat>)
    ensures w == 0 ==> r == {}
    ensures forall s :: s in r ==> s % WordsPerPage != 0
    ensures forall s :: s in r ==> s < PageCount(w) * WordsPerPage
    ensures PageCount(w) >= 2 ==>
      var pair := LastPagePair(PageCount(w));
      pair * WordsPerPage + PageSplitPoint(w) in r
      && (pair + 1) * WordsPerPage + PageSplitPoint(w) in r
    ensures PageCount(w) % 2 == 1 ==> OddPagePoint(PageCount(w)) in r
  {
    var n := PageCount(w);
    PlannerBounds(w);
    PairPoints(n, PageSplitPoint(w)) + OddPoints(n)
  }

  /** At most three jumps are planned, all on the last three pages. */
  lemma SkipPointsNearEnd(w: nat)
    ensures |SkipPoints(w)| <= 3
    ensures forall s :: s in SkipPoints(w) ==> PageOf(s) + 3 >= PageCount(w)
  {
    var n := PageCount(w);
    PlannerBounds(w);
    assert SkipPoints(w) == PairPoints(n, PageSplitPoint(w)) + OddPoints(n);
  }

  /** The ranges the planner's quantities fall in. */
  lemma PlannerBounds(w: nat)
    ensures WordsPerPage / 2 <= PageSplitPoint(w) < WordsPerPage
    ensures var n := PageCount(w);
      n >= 2 ==>
        var pair := LastPagePair(n);
        pair % 2 == 0 && pair + 1 < n
        && PageOf(pair * WordsPerPage + PageSplitPoint(w)) == pair
        && PageOf((pair + 1) * WordsPerPage + PageSplitPoint(w)) == pair + 1
    ensures var n := PageCount(w);
      n >= 1 ==> PageOf(OddPagePoint(n)) == n - 1 && OddPagePoint(n) % WordsPerPage == WordsPerPage / 2
  {
    var n := PageCount(w);
    var s := PageSplitPoint(w);
    if n >= 2 {
      var pair := LastPagePair(n);
      DivModUnique(pair * WordsPerPage + s, WordsPerPage, pair, s);
      DivModUnique((pair + 1) * WordsPerPage + s, WordsPerPage, pair + 1, s);
    }
    if n >= 1 {
      DivModUnique(OddPagePoint(n), WordsPerPage, n - 1, WordsPerPage / 2);
    }
  }

  /**
   * `words_in_last_two_pages` as intended: the words left for the last two
   * pages once every earlier page is full, that is a full last page when
   * `W` is a multiple of the page size.
   */
  function WordsInLastTwo(w: nat): nat
  {
    (w + WordsPerPage - 1) % WordsPerPage + 1 + WordsPerPage
  }

  /** The corrected split: the larger half goes on the first page of the pair. */
  function BalancedSplitPoint(w: nat): nat
  {
    (WordsInLastTwo(w) + 1) / 2
  }

  /**
   * The corrected planner: the pair points are only needed when the first
   * page of the pair is not to be filled completely.
   */
  function BalancedSkipPoints(w: nat): (r: set<nat>)
    ensures w == 0 ==> r == {}
    ensures forall s :: s in r ==> s % WordsPerPage != 0
    ensures forall s :: s in r ==> s < PageCount(w) * WordsPerPage
    ensures PageCount(w) % 2 == 1 ==> OddPagePoint(PageCount(w)) in r
  {
    var n := PageCount(w);
    var split := BalancedSplitPoint(w);
    BalancedBounds(w);
    PlannerBounds(w);
    (if split < WordsPerPage then PairPoints(n, split) else {}) + OddPoints(n)
  }

  lemma BalancedBounds(w: nat)
    ensures WordsPerPage / 2 <= BalancedSplitPoint(w) <= WordsPerPage
    ensures var n, s := PageCount(w), BalancedSplitPoint(w);
      n >= 2 && s < WordsPerPage ==>
        var pair := LastPagePair(n);
        PageOf(pair * WordsPerPage + s) == pair
        && PageOf((pair + 1) * WordsPerPage + s) == pair + 1
  {
    var n, s := PageCount(w), BalancedSplitPoint(w);
    if n >= 2 && s < WordsPerPage {
      var pair := LastPagePair(n);
      DivModUnique(pair * WordsPerPage + s, WordsPerPage, pair, s);
      DivModUnique((pair + 1) * WordsPerPage + s, WordsPerPage, pair + 1, s);
    }
  }

  /**
   * The correction changes nothing when the last page is partly filled
   * with an even number of words.
   */
  lemma BalancedAgreesOnEvenRemainder(w: nat)
    requires w % WordsPerPage != 0 && (w % WordsPerPage) % 2 == 0
    ensures BalancedSkipPoints(w) == SkipPoints(w)
  {
    var q, r := w / WordsPerPage, w % WordsPerPage;
    DivModUnique(w + WordsPerPage - 1, WordsPerPage, q + 1, r - 1);
    assert WordsInLastTwo(w) == r + WordsPerPage;
    assert BalancedSplitPoint(w) == PageSplitPoint(w);
  }

  /** 30 words, two pages: the planner splits them 15 and 15. */
  lemma ThirtyWordsPlan()
    ensures SkipPoints(30) == {15, 39}
  {
    assert PageCount(30) == 2 && PageSplitPoint(30) == 15;
    assert PairPoints(2, 15) == {15, 39};
  }

  /**
   * 25 words, two pages: as written the planner splits 24 + 1 words in
   * half, jumping at 12 and 36; corrected, it splits 25 as 13 and 12.
   */
  lemma TwentyFiveWordsPlan()
    ensures SkipPoints(25) == {12, 36}
    ensures BalancedSkipPoints(25) == {13, 37}
  {
    assert PageCount(25) == 2 && PageSplitPoint(25) == 12 && BalancedSplitPoint(25) == 13;
    assert PairPoints(2, 12) == {12, 36};
    assert PairPoints(2, 13) == {13, 37};
  }

  /**
   * 48 words, two full pages: as written the planner still jumps at 12
   * and 36, because `48 % 24 + 24` counts only one page; corrected, it
   * plans no jump.
   */
  lemma FortyEightWordsPlan()
    ensures SkipPoints(48) == {12, 36}
    ensures BalancedSkipPoints(48) == {}
  {
    assert PageCount(48) == 2 && PageSplitPoint(48) == 12 && BalancedSplitPoint(48) == 24;
    assert PairPoints(2, 12) == {12, 36};
  }

  /**
   * 72 words, three full pages: as written the planner treats the last
   * page as holding 24 words for the pair 0 and 1, splits them 12 and 12,
   * and adds the point half-way into page 2.
   */
  lemma SeventyTwoWordsPlan()
    ensures SkipPoints(72) == {12, 36, 60}
  {
    assert PageCount(72) == 3 && PageSplitPoint(72) == 12 && LastPagePair(3) == 0;
    assert PairPoints(3, 12) == {12, 36};
    assert OddPagePoint(3) == 60;
    assert OddPoints(3) == {60};
  }
}

=== FILE: word_extraction.dfy ===
/**
 * The word field extraction done by `EXTRACT_WORD_RE` (krei-kartojn.py:8)
 * with `re.match`, written as an explicit scanner. The pattern skips
 * everything up to the first tab, then optional spaces, then takes the
 * shortest non-empty run of characters other than tab and newline that is
 * followed by optional spaces and either a tab or the end of the line
 * (Python's `$` also matches just before a newline that ends the string).
 */
module WordExtraction {
  import opened Wrappers

  predicate IsTabOrNewline(c: char)
  {
    c == '\t' || c == '\n'
  }

  predicate AllSpaces(s: string)
  {
    forall i :: 0 <= i < |s| ==> s[i] == ' '
  }

  /** Position of the first tab in `line`, if there is one. */
  function FirstTab(line: string): (r: Option<nat>)
    ensures r.Some? ==> r.value < |line| && line[r.value] == '\t'
    ensures r.Some? ==> forall i :: 0 <= i < r.value ==> line[i] != '\t'
    ensures r.None? ==> forall i :: 0 <= i < |line| ==> line[i] != '\t'
  {
    if |line| == 0 then None
    else if line[0] == '\t' then Some(0)
    else
      match FirstTab(line[1..])
      case None => None
      case Some(i) => Some(i + 1)
  }

  /** Length of the longest prefix of `s` free of tabs and newlines. */
  function FieldLength(s: string): (n: nat)
    ensures n <= |s|
    ensures forall i :: 0 <= i < n ==> !IsTabOrNewline(s[i])
    ensures n < |s| ==> IsTabOrNewline(s[n])
  {
    if |s| == 0 || IsTabOrNewline(s[0]) then 0 else 1 + FieldLength(s[1..])
  }

  /** Number of spaces `s` starts with. */
  function LeadingSpaces(s: string): (n: nat)
    ensures n <= |s|
    ensures forall i :: 0 <= i < n ==> s[i] == ' '
    ensures n < |s| ==> s[n] != ' '
  {
    if |s| == 0 || s[0] != ' ' then 0 else 1 + LeadingSpaces(s[1..])
  }

  /** Number of spaces `s` ends with. */
  function TrailingSpaces(s: string): (n: nat)
    ensures n <= |s|
    ensures forall i :: |s| - n <= i < |s| ==> s[i] == ' '
    ensures n < |s| ==> s[|s| - 1 - n] != ' '
  {
    if |s| == 0 || s[|s| - 1] != ' ' then 0 else 1 + TrailingSpaces(s[..|s| - 1])
  }

  /**
   * `s` without its leading and trailing spaces (only the space character,
   * as in the pattern's ` *`), for an `s` that is not all spaces.
   */
  function Strip(s: string): (r: string)
    requires !AllSpaces(s)
    ensures |r| > 0 && r[0] != ' ' && r[|r| - 1] != ' '
    ensures var k := LeadingSpaces(s);
      k + |r| <= |s| && s[k..k + |r|] == r
      && forall i :: k + |r| <= i < |s| ==> s[i] == ' '
  {
    var k := LeadingSpaces(s);
    var t := TrailingSpaces(s);
    assert k < |s|;
    assert t < |s| - k;
    s[k..|s| - t]
  }

  /**
   * The group the pattern captures from `rest`, the text after the first
   * tab, or `None` when the pattern fails there.
   */
  function ExtractField(rest: string): (r: Option<string>)
    ensures r.Some? ==> |r.value| > 0
    ensures r.Some? ==> forall i :: 0 <= i < |r.value| ==> !IsTabOrNewline(r.value[i])
    ensures r.Some? ==> r.value == " " || (r.value[0] != ' ' && r.value[|r.value| - 1] != ' ')
  {
    var n := FieldLength(rest);
    if n == 0 then None
    // a newline that is not the last character is neither a tab nor `$`
    else if n + 1 < |rest| && rest[n] == '\n' then None
    else if AllSpaces(rest[..n]) then Some(" ")
    else Some(Strip(rest[..n]))
  }

  /** The group `EXTRACT_WORD_RE.match(line)` captures, or `None` when it does not match. */
  function Extract(line: string): (r: Option<string>)
    ensures r.Some? ==> |r.value| > 0
    ensures r.Some? ==> forall i :: 0 <= i < |r.value| ==> !IsTabOrNewline(r.value[i])
    ensures r.Some? ==> r.value == " " || (r.value[0] != ' ' && r.value[|r.value| - 1] != ' ')
    ensures FirstTab(line).None? ==> r.None?
  {
    if FirstTab(line).None? then None
    else ExtractField(line[FirstTab(line).value + 1..])
  }

  /**
   * The shape the pattern matches after the first tab, by positions in
   * `rest`: the spaces `rest[..a]`, the group `rest[a..b]`, the spaces
   * `rest[b..e]`, and at `e` a tab, the end, or a final newline.
   */
  predicate FieldShape(rest: string, a: nat, b: nat, e: nat)
  {
    && a < b <= e <= |rest|
    && (forall i :: 0 <= i < a ==> rest[i] == ' ')
    && (forall i :: a <= i < b ==> !IsTabOrNewline(rest[i]))
    && (forall i :: b <= i < e ==> rest[i] == ' ')
    && (e == |rest| || rest[e] == '\t' || (rest[e] == '\n' && e + 1 == |rest|))
  }

  /** The whole pattern: `[^\t]*\t` up to position `t`, then the field shape. */
  predicate Shape(line: string, t: nat, a: nat, b: nat, e: nat)
  {
    && t < |line|
    && (forall i :: 0 <= i < t ==> line[i] != '\t')
    && line[t] == '\t'
    && FieldShape(line[t + 1..], a, b, e)
  }

  /** The positions at which the pattern matches the group `ExtractField` returns. */
  lemma ExtractFieldSound(rest: string) returns (a: nat, b: nat, e: nat)
    requires ExtractField(rest).Some?
    ensures FieldShape(rest, a, b, e) && rest[a..b] == ExtractField(rest).value
  {
    var n := FieldLength(rest);
    var field := rest[..n];
    if AllSpaces(field) {
      assert rest[n - 1] == field[n - 1];
      assert rest[n - 1..n] == [rest[n - 1]];
      a, b, e := n - 1, n, n;
    } else {
      a, b, e := StrippedFieldShape(rest, n);
    }
  }

  lemma StrippedFieldShape(rest: string, n: nat) returns (a: nat, b: nat, e: nat)
    requires n == FieldLength(rest) && 0 < n
    requires n + 1 < |rest| ==> rest[n] != '\n'
    requires !AllSpaces(rest[..n])
    ensures FieldShape(rest, a, b, e) && rest[a..b] == Strip(rest[..n])
  {
    var field := rest[..n];
    var k := LeadingSpaces(field);
    var w := Strip(field);
    var hi := k + |w|;
    forall i | 0 <= i < k
      ensures rest[i] == ' '
    {
      assert rest[i] == field[i];
    }
    forall i | hi <= i < n
      ensures rest[i] == ' '
    {
      assert rest[i] == field[i];
    }
    forall i | 0 <= i < |w|
      ensures rest[k..hi][i] == w[i]
    {
      assert field[k..hi][i] == w[i];
      assert rest[k + i] == field[k + i];
    }
    assert rest[k..hi] == w;
    a, b, e := k, hi, n;
  }

  /** Whatever `Extract` returns is a group the pattern can match. */
  lemma ExtractSound(line: string)
    requires Extract(line).Some?
    ensures exists t: nat, a: nat, b: nat, e: nat ::
      Shape(line, t, a, b, e) && line[t + 1..][a..b] == Extract(line).value
  {
    var t := FirstTab(line).value;
    var a, b, e := ExtractFieldSound(line[t + 1..]);
    assert Shape(line, t, a, b, e);
  }

  lemma ExtractFieldComplete(rest: string, a: nat, b: nat, e: nat)
    requires FieldShape(rest, a, b, e)
    ensures ExtractField(rest).Some?
    ensures AllSpaces(rest[..e]) ==> ExtractField(rest) == Some(" ")
    ensures !AllSpaces(rest[..e]) ==> ExtractField(rest) == Some(Strip(rest[..e]))
  {
    var n := FieldLength(rest);
    if n < e {
      assert false;
    }
    if n > e {
      assert false;
    }
  }

  /**
   * Whenever the pattern can match, `Extract` answers, and its answer
   * depends only on the text between the first tab and the terminator:
   * that text stripped of spaces, or a single space if it is all spaces.
   */
  lemma ExtractComplete(line: string, t: nat, a: nat, b: nat, e: nat)
    requires Shape(line, t, a, b, e)
    ensures Extract(line).Some?
    ensures AllSpaces(line[t + 1..][..e]) ==> Extract(line) == Some(" ")
    ensures !AllSpaces(line[t + 1..][..e]) ==> Extract(line) == Some(Strip(line[t + 1..][..e]))
  {
    assert FirstTab(line) == Some(t);
    ExtractFieldComplete(line[t + 1..], a, b, e);
  }

  lemma ExampleTrimmed()
    ensures Extract("1\t  hello  \textra") == Some("hello")
  {
    var line := "1\t  hello  \textra";
    ShapeExample();
    ExtractComplete(line, 1, 2, 7, 9);
    StripExample();
  }

  lemma ShapeExample()
    ensures Shape("1\t  hello  \textra", 1, 2, 7, 9)
    ensures "1\t  hello  \textra"[2..][..9] == "  hello  "
  {
    var line := "1\t  hello  \textra";
    var rest := "  hello  \textra";
    assert line[2..] == rest;
    assert rest[9] == '\t';
  }

  lemma StripExample()
    ensures !AllSpaces("  hello  ") && Strip("  hello  ") == "hello"
  {
    var s := "  hello  ";
    assert s[2] != ' ';
    assert LeadingSpaces(s) == 2;
    assert TrailingSpaces(s) == 2;
    assert s[2..7] == "hello";
  }

  lemma ExampleFinalNewline()
    ensures Extract("1\thello\n") == Some("hello")
  {
    var line := "1\thello\n";
    assert line[2..] == "hello\n";
    assert Shape(line, 1, 0, 5, 5);
    ExtractComplete(line, 1, 0, 5, 5);
    assert line[2..][..5] == "hello";
    StripNothing();
  }

  lemma StripNothing()
    ensures !AllSpaces("hello") && Strip("hello") == "hello"
  {
    var s := "hello";
    assert s[0] != ' ';
    assert LeadingSpaces(s) == 0;
    assert TrailingSpaces(s) == 0;
    assert s[0..5] == s;
  }

  lemma ExampleAllSpaces()
    ensures Extract("1\t   \n") == Some(" ")
  {
    var line := "1\t   \n";
    assert line[2..] == "   \n";
    assert FieldShape(line[2..], 2, 3, 3);
    ExtractComplete(line, 1, 2, 3, 3);
  }

  lemma ExampleNoTab()
    ensures Extract("no tab here") == None
  {
    var line := "no tab here";
    assert forall i :: 0 <= i < |line| ==> line[i] != '\t';
  }

  lemma ExampleEmptyField()
    ensures Extract("1\t\tword") == None
  {
    var line := "1\t\tword";
    assert FirstTab(line) == Some(1);
    assert line[2..] == "\tword";
    assert FieldLength("\tword") == 0;
  }

  lemma ExampleInnerNewline()
    ensures Extract("1\tab\ncd") == None
  {
    var line := "1\tab\ncd";
    assert FirstTab(line) == Some(1);
    assert line[2..] == "ab\ncd";
    assert FieldLength("ab\ncd") == 2;
  }
}

=== FILE: word_source.dfy ===
/**
 * The reading loop of krei-kartojn.py:127-150: line 1 is a header, every
 * later line that the word pattern matches yields a word, the first
 * occurrence of each word is kept in order, and each repeat produces a
 * warning carrying its 1-based line number. The file is given as its
 * sequence of lines and the warnings are returned instead of printed.
 */
module WordSource {
  import opened Wrappers
  import opened WordExtraction

  /** The message "Ripetita vorto … trovita ĉe linio …" printed for a repeat. */
  datatype Warning = RepeatedWord(word: string, lineNumber: nat)

  /** The loop's state: `word_list`, `all_words` and the warnings printed so far. */
  datatype WordList = WordList(words: seq<string>, seen: set<string>, warnings: seq<Warning>)

  const Empty := WordList([], {}, [])

  predicate NoDuplicates(words: seq<string>)
  {
    forall p, q :: 0 <= p < q < |words| ==> words[p] != words[q]
  }

  /** What the loop keeps true after every line: `set(word_list) == all_words`, no repeats. */
  ghost predicate Valid(st: WordList)
  {
    && NoDuplicates(st.words)
    && forall w :: w in st.seen <==> w in st.words
  }

  /**
   * The de-duplication at :144-150 for word `w` read on line `lineNumber`:
   * a repeat only adds a warning, a new word is appended and remembered.
   */
  function Absorb(st: WordList, lineNumber: nat, w: string): (r: WordList)
    requires Valid(st)
    ensures Valid(r)
    ensures w in r.seen && r.seen == st.seen + {w}
    ensures w in st.seen ==> r.words == st.words && r.warnings == st.warnings + [RepeatedWord(w, lineNumber)]
    ensures w !in st.seen ==> r.words == st.words + [w] && r.warnings == st.warnings
  {
    if w in st.seen then st.(warnings := st.warnings + [RepeatedWord(w, lineNumber)])
    else WordList(st.words + [w], st.seen + {w}, st.warnings)
  }

  /**
   * One iteration of the loop, for the line numbered `lineNumber`
   * (1-based): the header and lines the pattern does not match change nothing.
   */
  function ReadLine(st: WordList, lineNumber: nat, line: string): (r: WordList)
    requires Valid(st)
    ensures Valid(r)
    ensures lineNumber == 1 || Extract(line).None? ==> r == st
  {
    if lineNumber == 1 then st
    else
      match Extract(line)
      case None => st
      case Some(w) => Absorb(st, lineNumber, w)
  }

  /** The whole loop over `lines`, the file's lines in order. */
  function ReadLines(lines: seq<string>): (r: WordList)
    ensures Valid(r)
  {
    if |lines| == 0 then Empty
    else ReadLine(ReadLines(lines[..|lines| - 1]), |lines|, lines[|lines| - 1])
  }

  /** The same loop, over what each line yields rather than over the lines. */
  function Dedup(ys: seq<Option<string>>): (r: WordList)
    ensures Valid(r)
  {
    if |ys| == 0 then Empty
    else
      var st := Dedup(ys[..|ys| - 1]);
      var y := ys[|ys| - 1];
      if |ys| == 1 || y.None? then st else Absorb(st, |ys|, y.value)
  }

  /** What each line yields on its own: `ys[i]` is the word of line i+1, if it has one. */
  function Yields(lines: seq<string>): seq<Option<string>>
  {
    seq(|lines|, i requires 0 <= i < |lines| => Extract(lines[i]))
  }

  /** Line `i` (0-based, so line number i+1) is the first after the header to yield `w`. */
  predicate FirstOccurrence(ys: seq<Option<string>>, w: string, i: nat)
  {
    && 1 <= i < |ys|
    && ys[i] == Some(w)
    && forall j :: 1 <= j < i ==> ys[j] != Some(w)
  }

  /** The index of the first line after the header that yields `w`, searching from `i`. */
  function FirstLineFrom(ys: seq<Option<string>>, w: string, i: nat): (r: Option<nat>)
    requires 1 <= i
    ensures r.Some? ==> i <= r.value < |ys| && ys[r.value] == Some(w)
    ensures r.Some? ==> forall j :: i <= j < r.value ==> ys[j] != Some(w)
    ensures r.None? ==> forall j :: i <= j < |ys| ==> ys[j] != Some(w)
    decreases |ys| - i
  {
    if i >= |ys| then None
    else if ys[i] == Some(w) then Some(i)
    else FirstLineFrom(ys, w, i + 1)
  }

  /** The index of the first line after the header that yields `w`, if any. */
  function FirstLine(ys: seq<Option<string>>, w: string): (r: Option<nat>)
    ensures r.Some? ==> FirstOccurrence(ys, w, r.value)
    ensures r.None? ==> forall j :: 1 <= j < |ys| ==> ys[j] != Some(w)
  {
    FirstLineFrom(ys, w, 1)
  }

  /** A warning names a line that yields a word some earlier line already yielded. */
  predicate IsRepeat(ys: seq<Option<string>>, warning: Warning)
  {
    && 2 <= warning.lineNumber <= |ys|
    && ys[warning.lineNumber - 1] == Some(warning.word)
    && FirstLine(ys, warning.word).Some?
    && FirstLine(ys, warning.word).value < warning.lineNumber - 1
  }

  /** Adding a line only decides the first occurrence of words no earlier line yielded. */
  lemma FirstLineSnoc(ys: seq<Option<string>>, w: string)
    requires |ys| > 0
    ensures var n := |ys| - 1;
      var before := FirstLine(ys[..n], w);
      FirstLine(ys, w) ==
        if before.Some? then before
        else if n >= 1 && ys[n] == Some(w) then Some(n)
        else None
  {
    var n := |ys| - 1;
    var before := FirstLine(ys[..n], w);
    var after := FirstLine(ys, w);
    if before.Some? {
      assert FirstOccurrence(ys, w, before.value);
      if after.Some? && after.value < before.value {
        assert false;
      }
    } else if after.Some? && after.value < n {
      assert false;
    }
  }

  lemma {:induction false} ReadLinesIsDedup(lines: seq<string>)
    ensures ReadLines(lines) == Dedup(Yields(lines))
  {
    if |lines| > 0 {
      var n := |lines| - 1;
      ReadLinesIsDedup(lines[..n]);
      assert Yields(lines[..n]) == Yields(lines)[..n];
    }
  }

  /** Which words the loop keeps, and in which order. */
  ghost predicate WordsSpec(ys: seq<Option<string>>, words: seq<string>)
  {
    && (forall w :: w in words <==> FirstLine(ys, w).Some?)
    && (forall p, q :: 0 <= p < q < |words| ==>
          FirstLine(ys, words[p]).Some? && FirstLine(ys, words[q]).Some? &&
          FirstLine(ys, words[p]).value < FirstLine(ys, words[q]).value)
  }

  /** Every warning is a genuine repeat, in line order. */
  ghost predicate WarningsSound(ys: seq<Option<string>>, warnings: seq<Warning>)
  {
    && (forall k :: 0 <= k < |warnings| ==> IsRepeat(ys, warnings[k]))
    && (forall k, l :: 0 <= k < l < |warnings| ==> warnings[k].lineNumber < warnings[l].lineNumber)
  }

  /** Every repeat has its warning. */
  ghost predicate WarningsComplete(ys: seq<Option<string>>, warnings: seq<Warning>)
  {
    forall i :: 1 <= i < |ys| && ys[i].Some? && FirstLine(ys, ys[i].value) != Some(i)
      ==> RepeatedWord(ys[i].value, i + 1) in warnings
  }

  /** How first occurrences change when a line is added, for every word at once. */
  lemma FirstLineSnocAll(ys: seq<Option<string>>)
    requires |ys| > 0
    ensures var n := |ys| - 1;
      forall w :: FirstLine(ys, w) == (
        if FirstLine(ys[..n], w).Some? then FirstLine(ys[..n], w)
        else if n >= 1 && ys[n] == Some(w) then Some(n)
        else None)
  {
    forall w
      ensures FirstLine(ys, w) == (
        if FirstLine(ys[..|ys| - 1], w).Some? then FirstLine(ys[..|ys| - 1], w)
        else if |ys| - 1 >= 1 && ys[|ys| - 1] == Some(w) then Some(|ys| - 1)
        else None)
    {
      FirstLineSnoc(ys, w);
    }
  }

  lemma {:induction false} DedupWords(ys: seq<Option<string>>)
    ensures WordsSpec(ys, Dedup(ys).words)
  {
    if |ys| > 0 {
      DedupWords(ys[..|ys| - 1]);
      FirstLineSnocAll(ys);
    }
  }

  /** A repeat recorded before the last line is still a repeat with it. */
  lemma RepeatSnoc(ys: seq<Option<string>>, warning: Warning)
    requires |ys| > 0 && IsRepeat(ys[..|ys| - 1], warning)
    ensures IsRepeat(ys, warning)
  {
    FirstLineSnoc(ys, warning.word);
  }

  lemma {:induction false} DedupWarningsSound(ys: seq<Option<string>>)
    ensures WarningsSound(ys, Dedup(ys).warnings)
    ensures forall k :: 0 <= k < |Dedup(ys).warnings| ==> Dedup(ys).warnings[k].lineNumber <= |ys|
  {
    if |ys| > 0 {
      var n := |ys| - 1;
      var before := ys[..n];
      DedupWarningsSound(before);
      var st := Dedup(before);
      var r := Dedup(ys);
      forall k | 0 <= k < |st.warnings|
        ensures IsRepeat(ys, st.warnings[k])
      {
        RepeatSnoc(ys, st.warnings[k]);
      }
      if n == 0 || ys[n].None? || ys[n].value !in st.seen {
        assert r.warnings == st.warnings;
      } else {
        var w := ys[n].value;
        assert r.warnings == st.warnings + [RepeatedWord(w, |ys|)];
        DedupWords(before);
        FirstLineSnoc(ys, w);
        assert IsRepeat(ys, RepeatedWord(w, |ys|));
      }
    }
  }

  lemma {:induction false} DedupWarningsComplete(ys: seq<Option<string>>)
    ensures WarningsComplete(ys, Dedup(ys).warnings)
  {
    if |ys| > 0 {
      var n := |ys| - 1;
      var before := ys[..n];
      DedupWarningsComplete(before);
      var st := Dedup(before);
      assert forall k :: 0 <= k < |st.warnings| ==> st.warnings[k] in Dedup(ys).warnings;
      forall i | 1 <= i < |ys| && ys[i].Some? && FirstLine(ys, ys[i].value) != Some(i)
        ensures RepeatedWord(ys[i].value, i + 1) in Dedup(ys).warnings
      {
        FirstLineSnoc(ys, ys[i].value);
        if i < n {
          assert before[i] == ys[i];
          assert RepeatedWord(ys[i].value, i + 1) in st.warnings;
        } else {
          DedupWords(before);
        }
      }
    }
  }

  lemma {:induction false} DedupIgnoresHeader(ys: seq<Option<string>>, ys': seq<Option<string>>)
    requires |ys| == |ys'| && forall i :: 1 <= i < |ys| ==> ys[i] == ys'[i]
    ensures Dedup(ys) == Dedup(ys')
  {
    if |ys| > 1 {
      var n := |ys| - 1;
      DedupIgnoresHeader(ys[..n], ys'[..n]);
    }
  }

  /** Line 1 is a header: files that differ only there give the same result. */
  lemma HeaderIgnored(lines: seq<string>, other: seq<string>)
    requires |lines| == |other|
    requires forall i :: 1 <= i < |lines| ==> lines[i] == other[i]
    ensures ReadLines(lines) == ReadLines(other)
  {
    ReadLinesIsDedup(lines);
    ReadLinesIsDedup(other);
    DedupIgnoresHeader(Yields(lines), Yields(other));
  }

  /**
   * What the loop computes from the whole file: `word_list` holds exactly
   * the words some line after the header yields, each once, in the order
   * of their first occurrence, and there is one warning per line that
   * yields an already seen word, in line order.
   */
  lemma ReadLinesSpec(lines: seq<string>)
    ensures var r, ys := ReadLines(lines), Yields(lines);
      && (forall w :: w in r.words <==> FirstLine(ys, w).Some?)
      && (forall p, q :: 0 <= p < q < |r.words| ==>
            FirstLine(ys, r.words[p]).Some? && FirstLine(ys, r.words[q]).Some? &&
            FirstLine(ys, r.words[p]).value < FirstLine(ys, r.words[q]).value)
      && (forall k :: 0 <= k < |r.warnings| ==> IsRepeat(ys, r.warnings[k]))
      && (forall k, l :: 0 <= k < l < |r.warnings| ==> r.warnings[k].lineNumber < r.warnings[l].lineNumber)
      && (forall i :: 1 <= i < |ys| && ys[i].Some? && FirstLine(ys, ys[i].value) != Some(i)
            ==> RepeatedWord(ys[i].value, i + 1) in r.warnings)
  {
    ReadLinesIsDedup(lines);
    DedupWords(Yields(lines));
    DedupWarningsSound(Yields(lines));
    DedupWarningsComplete(Yields(lines));
  }
}

=== FILE: wrappers.dfy ===
/** An optional value: the model's stand-in for Python's `None` results. */
module Wrappers {

  datatype Option<+T> = None | Some(value: T)

}
